=== FILE: README.md ===
# ClipToMd text pipeline and tray controller, in Dafny

ClipToMd is a Windows tray tool. When it is active and the clipboard receives
HTML, it converts the HTML to Markdown and puts the Markdown back on the
clipboard. This project models the logic of `Program.cs`:

- **Fragment extraction** (`Fragment`). A "HTML Format" clipboard payload
  marks the copied selection with `<!--StartFragment-->` and
  `<!--EndFragment-->`. `ExtractFragment` returns the text between the first
  occurrences of the two markers. It returns the whole payload when a marker
  is missing. When the end marker starts before the start marker ends, the
  source's `Substring` throws; the model returns `MarkersOutOfOrder`.
- **Editor link stripping** (`Strip`, `StripProperties`, `StripRules`,
  `StripKeeps`). `RemoveVsCodeLinks`
  applies three case-insensitive regular-expression rewrites in a fixed
  order. It deletes `<img … src="vscode-file://…">`, unwraps
  `<a … href="vscode-file://…">X</a>` to `X`, and deletes Markdown images
  `![…](vscode-file://…)`. Each rewrite is modelled as a deterministic
  left-to-right scanner over the original string. At each offset the scanner
  tries candidate positions in the order a backtracking engine does:
  - the greedy `[^>]*` before `src`/`href` tries attribute positions from the
    first `>` downward;
  - the lazy `.*?` of a Markdown image tries `]` positions upward;
  - the lazy anchor body ends at the first `</a>`.
- **Backslash clean-up** (`Backslashes`). `RemoveUnnecessaryBackslashes`
  deletes a `\` that comes before one of `( ) { } [ ] < > + - _ @ # $ % ^ *`,
  unless the character before it in the original string is a `\`.
- **The conversion pipeline** (`Pipeline`). `ProcessClipboard` runs
  extraction, the blank check, stripping, the converter, optional entity
  decoding and optional backslash removal. The HTML-to-Markdown converter
  (ReverseMarkdown) and `WebUtility.HtmlDecode` are function parameters.
- **The controller** (`Settings`, `HotkeyCapture`, `Controller`). This covers
  the settings record and its defaults, the active switch, the four menu
  switches, the global hotkey (which only toggles the active switch), the
  hotkey dialog's key-capture rule, and the clipboard-change decision. A run
  over a sequence of events yields the texts written to the clipboard. The
  "Set Hotkey..." handler is chosen per run: as written, or as intended
  (see Findings).

Supporting modules: `Text` (character classes, ordinal substring search) and
`Subsequences` (the "obtained by deleting characters" relation).

## Model

| member | source | states |
|---|---|---|
| Text.IndexOf | Program.cs:300-301 | The search finds something exactly when the pattern occurs, and what it finds is the first occurrence. |
| Text.IndexOfIgnoringCaseFrom | Program.cs:146 | The case-insensitive search from an offset finds the first case-insensitive occurrence at or after it, or reports that there is none. |
| Fragment.ExtractFragment | Program.cs:295-310 | With either marker missing, the payload comes back unchanged. With both present, the result is exactly the text between the end of the first start marker and the first end marker. If that end marker begins before the start marker ends, the result is the `Substring` failure. |
| Fragment.ExtractBetweenMarkers | Program.cs:295-310 | Take a payload laid out as prefix, start marker, fragment, end marker, suffix. The prefix holds neither marker, and the fragment holds no end marker. Extraction yields exactly the fragment. Other comments may appear anywhere. |
| Fragment.CommentInsideFragment | Program.cs:295-310 | A fragment that holds an ordinary HTML comment is extracted whole. |
| Strip.LastFoundNone | Program.cs:274 | The greedy attribute search fails exactly when no attribute position before the tag's first `>` matches. |
| Strip.LastFoundIs | Program.cs:274 | When several attribute positions match, the match used is the one at the largest position. |
| Strip.FirstImageTargetNone | Program.cs:288 | The lazy Markdown image search fails exactly when no `]` position matches. |
| Strip.FirstImageTargetIs | Program.cs:288 | The match used is the one whose `]` is the smallest position that matches. |
| Strip.QuotedSchemeValue | Program.cs:274 | The tail `\s*=\s*["']vscode-file://[^"']*["']` of an attribute. A match holds one `=` with only white space around it, then a quote, then the scheme token, then characters that are not quotes, then a closing quote. |
| Strip.TagAttributeAt | Program.cs:274 | The `\bsrc` or `\bhref` of a tag. A match needs a word boundary before the name: a non-word character just before it. It ends at the first `>` after the quoted value. |
| Strip.ImageTargetAt | Program.cs:288 | The tail `\]\(\s*vscode-file://[^)]*\)` of a Markdown image, tried at one `]`. A match has `](`, then only white space, then the scheme token, then characters that are not `)`, then the closing `)`. |
| Strip.ImageTagAt | Program.cs:272-276 | An image-tag match lies inside the text, contains the scheme token and replaces the whole tag with nothing. It starts only at `<img` followed by a non-word character (`<img\b`). |
| Strip.HrefAt | Program.cs:281 | An `href` match lies inside the text and contains the scheme token. Its kept text is the lazy `(.*?)`: it ends at the first `</a>` after the opening tag, in any letter case. That `</a>` ends the match, and no `</a>` starts inside the kept text. |
| Strip.BodyAfter | Program.cs:281 | The lazy `(.*?)</a>` after an opening tag fails exactly when no `</a>` follows, in any letter case. Otherwise the body starts right after the tag and stops at the first `</a>`, and the match ends right after that `</a>`. |
| Strip.AnchorTagAt | Program.cs:279-283 | An anchor match lies inside the text and contains the scheme token in its tag. It keeps a slice of itself that excludes that token. The slice is the lazy link text: it stops at the first `</a>` after the opening tag, and the match ends right after that `</a>`. It starts only at `<a` followed by white space (`<a\s+`). |
| Strip.Scan | Program.cs:272-290 | A replace over the text from an offset never lengthens it. If it changes anything, the result is strictly shorter. With no scheme token from that offset on, in any letter case, it returns the text unchanged. |
| Strip.MarkdownImageAt | Program.cs:286-290 | A Markdown-image match lies inside the text, contains the scheme token and is replaced with nothing. It starts only at `![`. |
| Strip.MatchAt | Program.cs:272-290 | Whatever the rule, a match lies inside the text and contains the scheme token. It starts only where the rule's opener is: `<img\b`, `<a\s+` or `![`. |
| Strip.ReplaceFrom | Program.cs:272-290 | One rewrite, from an offset on, never lengthens the text. If it changes the text, the result is strictly shorter. Text with no scheme token from that offset on is returned unchanged. |
| Strip.RemoveVsCodeLinks | Program.cs:266-293 | The three rewrites together never lengthen the text. Exactness is stated by the lemmas below. |
| StripProperties.ScanIsSubseq | Program.cs:272-290 | A rewrite scan keeps a subsequence of its input: each match becomes a slice of itself, and every other character is copied. |
| StripProperties.RemoveVsCodeLinksOnlyDeletes | Program.cs:266-293 | The output is the input with some characters deleted. Nothing is inserted or reordered. |
| StripProperties.RemoveVsCodeLinksWithoutScheme | Program.cs:266-293 | Input that does not contain `vscode-file://`, in any letter case, is returned unchanged. |
| StripProperties.RemoveVsCodeLinksShrinksOrKeeps | Program.cs:266-293 | The output is the input itself or strictly shorter. |
| StripProperties.ScanAroundHit | Program.cs:272-290 | Take a replace from some offset whose first match starts further on. The text before that match is copied. The match becomes its kept slice, and the replace resumes right after the match. |
| StripRules.ImageTagRemoved | Program.cs:271-276 | For every quote-free value `V`, the image rewrite deletes the whole tag `<img src="vscode-file://V">`, even when `V` holds `>`. |
| StripRules.AnchorUnwrapped | Program.cs:278-283 | For every quote-free value `V` and every text `T` without `</a>` in any letter case, the anchor rewrite turns `<a href="vscode-file://V">T</a>` into exactly `T`. |
| StripRules.MarkdownImageRemoved | Program.cs:285-290 | For every alt text without `]` and every target `V` without `)`, the Markdown-image rewrite deletes the whole `![ALT](vscode-file://V)`. |
| StripRules.ImageTagDeletedFrom | Program.cs:271-276 | Take a replace from any offset, over any text, where `<img src="vscode-file://V">` is the first `<img\b` from that offset on. It copies the text before the tag, deletes the tag and goes on right after it. |
| StripRules.AnchorUnwrappedFrom | Program.cs:278-283 | Take a replace from any offset, over any text, where `<a href="vscode-file://V">T</a>` is the first `<a\s+` from that offset on. It copies the text before the anchor, writes `T` and goes on right after the first `</a>`. A later `</a>` or a later anchor is left to the rest of the replace. |
| StripRules.MarkdownImageDeletedFrom | Program.cs:285-290 | Take a replace from any offset, over any text, where `![ALT](vscode-file://V)` is the first `![` from that offset on. It copies the text before the image, deletes the image and goes on right after it. |
| StripRules.ImageTagInContext | Program.cs:271-276 | Surround the tag with text `X` in which no `<img\b` starts and text `Y` that holds no scheme token. The image rewrite then yields exactly `X` followed by `Y`. |
| StripRules.AnchorInContext | Program.cs:278-283 | Surround the anchor with text `X` in which no `<a\s+` starts and text `Y` that holds no scheme token. `Y` may hold a further `</a>`. The anchor rewrite then yields exactly `X`, then `T`, then `Y`. |
| StripRules.MarkdownImageInContext | Program.cs:285-290 | Surround the image with text `X` in which no `![` starts and text `Y` that holds no scheme token. The Markdown-image rewrite then yields exactly `X` followed by `Y`. |
| StripRules.ImgExample | Program.cs:271-276 | `<img src="vscode-file://x/y.png">` becomes the empty string. |
| StripRules.AnchorExample | Program.cs:278-283 | `<a href="vscode-file://x">label</a>` becomes `label`. The image rewrite before it changes nothing, and the Markdown-image rewrite after it changes nothing. |
| StripRules.MarkdownExample | Program.cs:285-290 | `![](vscode-file://x)` becomes the empty string. The two tag rewrites leave it alone. |
| StripRules.TwoAnchorsNoImage | Program.cs:271-276 | The image rewrite leaves two editor anchors separated by a space unchanged. |
| StripRules.TwoAnchorsUnwrapped | Program.cs:278-283 | `<a href="vscode-file://x">A</a> <a href="vscode-file://y">B</a>` becomes `A B` under the anchor rewrite. Every match is replaced, not only the first, and each link text stops at its own `</a>`. |
| StripRules.TwoAnchorsExample | Program.cs:266-293 | The same two anchors become `A B` through all three rewrites. |
| StripRules.NotOpenedWithout | Program.cs:272-290 | No rule opens at a character other than its first one: `<` for the two tag rules, `!` for Markdown images. |
| StripKeeps.OpenersOnlyAt | Program.cs:272-290 | A rule leaves the text alone when every occurrence of its first character is at an offset where its opener does not start. |
| StripKeeps.AreaKept | Program.cs:278-283 | `<area href="vscode-file://x">t</a>` is left unchanged: `<a\s+` needs white space right after `<a`, and `<area` is no `<img\b`. |
| StripKeeps.ImgPrefixKept | Program.cs:271-276 | `<imgx src="vscode-file://x">` is left unchanged: `<img\b` needs a non-word character after `<img`. |
| StripKeeps.XsrcKept | Program.cs:271-276 | `<img xsrc="vscode-file://x">` is left unchanged: `\bsrc` needs a non-word character before `src`. |
| StripKeeps.TextBeforeSchemeKept | Program.cs:285-290 | `![a](see vscode-file://x)` is left unchanged: only white space may come between `](` and the scheme. |
| StripKeeps.AnchorInParagraph | Program.cs:266-293 | `<p><a href="vscode-file://x">t</a></p>` becomes `<p>t</p>`: the `<` of `<p>` opens nothing, and the paragraph tags stay. |
| Backslashes.ScanIsKept | Program.cs:263 | The regex scan, which skips the character after each match, equals the position-by-position filter that drops exactly the matching backslashes. |
| Backslashes.RemoveUnnecessaryBackslashes | Program.cs:256-264 | Empty input is returned as is. Otherwise exactly the backslashes where the pattern matches are deleted. |
| Backslashes.KeptIsSubseq | Program.cs:263 | Only deletions happen: the output is a subsequence of the input. |
| Backslashes.KeptCounts | Program.cs:263 | Only backslashes are deleted. Every other character keeps its number of occurrences. |
| Backslashes.KeptWithoutEscapes | Program.cs:263 | Where the pattern matches nowhere, the text is unchanged. |
| Backslashes.RemoveUnnecessaryBackslashesIdempotent | Program.cs:256-264 | A second removal deletes nothing more. |
| Backslashes.SingleEscapesRemoved | Program.cs:263 | `\(hi\)` becomes `(hi)`. |
| Backslashes.DoubledEscapeKept | Program.cs:263 | In `\\(hi\)`, the backslash after a backslash stays and the one before `)` goes. |
| Settings.DefaultsMeaning | Program.cs:28-36 | The default hotkey is Ctrl+Shift+M, with neither Alt nor Win. Only editor HTML is converted automatically. Both clean-up stages are on. |
| Settings.ValidModifiersAreFlags | Program.cs:497-500 | A mask from 1 to 7 is a non-empty combination of the Control, Alt and Shift flags, without Win. |
| HotkeyCapture.OnKeyDown | Program.cs:532-547 | Ctrl, Shift or Alt pressed alone, or any key pressed without a modifier, leaves the selection unchanged. Any other press selects its key, with exactly the held modifiers among Control, Alt and Shift, never Win, and at least one. |
| HotkeyCapture.Capture | Program.cs:532-547 | The dialog's final selection is the one it started with, or what one of the accepted presses selects. |
| HotkeyCapture.CaptureIsLastAccepted | Program.cs:532-547 | After a sequence of presses, the last accepted press decides the selection. With no accepted press, the dialog keeps the hotkey it started with. |
| HotkeyCapture.CaptureKeepsValid | Program.cs:532-547 | Starting from a valid hotkey, the dialog only ever selects a valid one. |
| HotkeyCapture.CaptureExample | Program.cs:532-547 | From Ctrl+Shift+M, the presses Shift alone, Ctrl+Alt+K, then K alone select Ctrl+Alt+K. |
| Pipeline.Postprocess | Program.cs:222-232 | With both flags off, the converter's output is kept. With backslash removal on, the result is a subsequence of the decoded text (or of the output, if decoding is off), and no removable escape is left in it. |
| Pipeline.ProcessClipboard | Program.cs:200-253 | Out-of-order markers make the conversion fail. A blank fragment converts nothing. Anything else is converted. What is written is never empty, and with backslash removal on it has no removable escape left. |
| Pipeline.StagesFollowFlags | Program.cs:222-232 | With both flags off, the converter output is kept. With only decoding on, it is decoded. With only backslash removal on, backslashes are removed from the converter output. With both on, they are removed from the decoded output. Removal only deletes characters. |
| Pipeline.DecodingPrecedesBackslashRemoval | Program.cs:222-232 | Entity decoding runs before backslash removal. An escape that decoding produces is removed, while the opposite order would keep it. |
| Pipeline.ConvertsFragmentBetweenMarkers | Program.cs:200-232 | For a non-blank fragment between the markers, with neither marker before them and no end marker inside, the converter receives the fragment with editor links stripped, and the result is written unless it is empty. |
| Pipeline.BlankFragmentConvertsNothing | Program.cs:203-205 | A blank fragment between the markers, with neither marker before them, converts nothing. |
| Pipeline.ConvertsWholePayloadWithoutMarkers | Program.cs:203-232 | Without a start marker, the whole payload goes through stripping and conversion. |
| Pipeline.EditorAnchorReachesConverterAsText | Program.cs:200-232 | End to end: when an editor anchor is copied between the markers, with neither marker before them, the converter receives only its text `label`. |
| Controller.Startup | Program.cs:43 | The tool starts inactive, with the loaded settings and no dialog created. |
| Controller.ToggleActive | Program.cs:312-323 | Only the active switch flips. The settings and the dialog are untouched. |
| Controller.ToggleActiveTwice | Program.cs:320-323 | Toggling the active switch twice restores the state. |
| Controller.Toggle | Program.cs:325-351 | Each menu switch flips exactly its own setting. The other switches, the hotkey and the active switch are untouched. |
| Controller.ToggleTwice | Program.cs:325-351 | Flipping a switch twice restores the state. |
| Controller.TogglesCommute | Program.cs:325-351 | Two switch flips give the same state in either order. |
| Controller.ShouldConvert | Program.cs:125-155 | A clipboard change is converted iff three things hold. The tool is active. The clipboard has HTML. Either all HTML is converted, or editor HTML is converted and the HTML contains `SourceURL:vscode-file://` in any letter case. |
| Controller.ShowConfigAsWritten | Program.cs:358-375 | As written, the first dialog starts from the current hotkey. OK adopts its selection, and any other close keeps the settings. The switches and the active state are untouched. Afterwards the dialog stays held, and every later "Set Hotkey..." leaves the state unchanged. |
| Controller.ShowConfig | Program.cs:358-375 | As intended, each "Set Hotkey..." starts from the current hotkey. OK adopts the dialog's selection. Cancel changes nothing. The switches and the active state are untouched. |
| Controller.SetHotkeyBy | Program.cs:358-375 | "Set Hotkey..." never touches the switches or the active state, and Cancel changes nothing. As written, once a dialog is held, nothing changes. The first dialog, or every dialog as intended, adopts the captured key and modifiers on OK. |
| Controller.Step | Program.cs:125-375 | Only a clipboard change can write. It writes exactly when the decision says to convert and the pipeline produces a text, and then it writes that text. A clipboard change never changes the state. A hotkey press or the "Active" item toggles the active switch. A switch click flips that switch. "Set Hotkey..." runs the dialog. None of these writes. |
| Controller.Run | Program.cs:125-375 | A run over no events changes nothing and writes nothing. A run writes at most one text per clipboard change. |
| Controller.RunAppend | Program.cs:125-375 | Two runs one after the other equal one run over the concatenated events. The second starts in the state the first leaves, and the written texts follow each other. |
| Controller.HotkeyOnlyToggles | Program.cs:179-187 | A hotkey press is exactly one toggle of the active switch and never a conversion. |
| Controller.InactiveRunWritesNothing | Program.cs:125-127 | While the tool is inactive, and no event can activate it, nothing is ever written. |
| Controller.StartupWritesNothing | Program.cs:43 | The tool starts inactive, whatever settings were loaded. Until something activates it, nothing is written and it stays inactive. |
| Controller.NoAutoModeWritesNothing | Program.cs:128 | With both automatic modes off, and no event that can switch one on, nothing is ever written. |
| Controller.RunKeepsValidHotkey | Program.cs:358-369 | If the start-up hotkey is valid, every hotkey that events can reach is valid. |
| Controller.EditorHtmlWritesPipelineResult | Program.cs:137-154 | In the default editor-only mode, an active tool writes the pipeline's text for HTML that carries the editor's source URL. |
| Controller.ConvertAnyWritesPipelineResult | Program.cs:137-154 | With all HTML converted, an active tool writes exactly what the pipeline produces. |
| Controller.SecondHotkeyChangeIgnored | Program.cs:358-375 | As written, a second "Set Hotkey..." closed with OK and a new choice keeps the first choice. |
| Controller.SecondHotkeyChangeAdopted | Program.cs:358-375 | As intended, the second choice is adopted. |

## Left out

- Regular-expression case folding is ASCII only. Under `IgnoreCase`, .NET may
  also match some non-ASCII case equivalents of the letters in the three
  patterns. The model does not. The `OrdinalIgnoreCase` signature test in
  `OnClipboardChanged` (Program.cs:146) is modelled exactly: the signature
  is ASCII, and ordinal case-insensitive comparison maps no non-ASCII
  character to an ASCII letter.
- `\w` and `\b` treat only ASCII letters, digits and `_` as word characters.
  .NET also counts Unicode letters and digits.
- `string.IndexOf(string)` in `ExtractFragment` compares culture-sensitively,
  which ignores some zero-width characters. The model compares ordinally.
- The ReverseMarkdown converter and `WebUtility.HtmlDecode` are parameters.
  Their behaviour and any exceptions they throw are not modelled.
- Clipboard access is not modelled: `ContainsText`, `GetText` and `SetText`,
  and the exceptions around them that are swallowed. "Has HTML" and the raw
  HTML are event inputs, and the written text is an output. `SetText`
  refusing an empty string is modelled as the `EmptyMarkdown` outcome.
- The manual (non-automatic) path of `ProcessClipboard` is not modelled,
  because the only call passes `isAuto: true`. That includes its "No HTML
  found" and error balloons.
- Loading and saving the settings file (Program.cs:58-93) is not modelled.
  Start-up takes the loaded settings as a parameter.
- Not modelled: registering the global hotkey and its failure balloon, the
  clipboard monitor and hotkey message plumbing, the icon, tooltip, balloon
  notifications, menu check marks, the icon-reset timer, and `Exit`. None of
  them affects the state or the written text.
- No idempotence is claimed for `RemoveVsCodeLinks`. The lazy `(.*?)</a>`
  of the anchor rule unwraps only the outer tag of nested editor anchors, so
  a second pass can still change the text.
- `null` strings do not occur in the model. The fragment test of
  `string.IsNullOrWhiteSpace` is modelled for empty and white-space strings.
- Controller.Startup: the settings passed in are taken as read. Whether a
  settings file holds a valid hotkey is not checked. `RunKeepsValidHotkey`
  therefore assumes a valid start.

## Findings

| source | as written | input that shows it | evidently intended | confidence | as-written member | corrected member |
|---|---|---|---|---|---|---|
| Program.cs:358-375 | `ShowConfig` opens the dialog only when `_configForm` is null or disposed. A form shown with `ShowDialog` is hidden when closed, not disposed, so after the first dialog the guard is always false. | Choose "Set Hotkey...", press Ctrl+Alt+K and click OK. Then choose "Set Hotkey..." again: no dialog opens, so Ctrl+J can never be chosen. | Every "Set Hotkey..." opens the dialog, starting from the current hotkey. | not executed | Controller.SecondHotkeyChangeIgnored | Controller.SecondHotkeyChangeAdopted |

`Controller.Step` and `Controller.Run` take a `DialogRule`. With `AsWritten`,
"Set Hotkey..." follows the source (`Controller.ShowConfigAsWritten`). With
`Corrected`, it follows the intended behaviour (`Controller.ShowConfig`). The
other controller lemmas hold for both rules.

=== FILE: backslashes.dfy ===
/** Removal of superfluous Markdown escapes (`RemoveUnnecessaryBackslashes`).

    The source applies `Regex.Replace` with the pattern
    `(?<!\\)\\([(){}\[\]<>+\-_@#$%\^\*])` and the replacement `$1`: a backslash
    in front of one of seventeen punctuation characters is dropped unless the
    character before it, in the original string, is itself a backslash.
    `Multiline` changes nothing here because the pattern has no anchors.
 */
module Backslashes {
  import opened Subsequences

  /** The characters a removable backslash may precede. */
  const Escapable: set<char> :=
    {'(', ')', '{', '}', '[', ']', '<', '>', '+', '-', '_', '@', '#', '$', '%', '^', '*'}

  /** The pattern matches at `i`: a backslash, not preceded by a backslash,
      followed by an escapable character. */
  predicate EscapeAt(s: string, i: nat) {
    i + 1 < |s| && s[i] == '\\' && s[i + 1] in Escapable && (i == 0 || s[i - 1] != '\\')
  }

  /** The regex engine's scan from offset `i`: on a match it emits the captured
      character and resumes after the match; otherwise it copies one character. */
  function ScanFrom(s: string, i: nat): string
    requires i <= |s|
    decreases |s| - i
  {
    if i == |s| then []
    else if EscapeAt(s, i) then [s[i + 1]] + ScanFrom(s, i + 2)
    else [s[i]] + ScanFrom(s, i + 1)
  }

  /** Reference reading, position by position: `s[i..]` with every backslash
      at which the pattern matches deleted and every other character kept. */
  function KeptFrom(s: string, i: nat): string
    requires i <= |s|
    decreases |s| - i
  {
    if i == |s| then []
    else (if EscapeAt(s, i) then [] else [s[i]]) + KeptFrom(s, i + 1)
  }

  /** The scan and the reference agree: the character the scan skips after a
      match can never itself be a match, because it is not a backslash. */
  lemma {:induction false} ScanIsKept(s: string, i: nat)
    requires i <= |s|
    ensures ScanFrom(s, i) == KeptFrom(s, i)
    decreases |s| - i
  {
    if i < |s| {
      if EscapeAt(s, i) {
        ScanIsKept(s, i + 2);
        assert !EscapeAt(s, i + 1);
        assert KeptFrom(s, i + 1) == [s[i + 1]] + KeptFrom(s, i + 2);
      } else {
        ScanIsKept(s, i + 1);
      }
    }
  }

  /** `RemoveUnnecessaryBackslashes`: the empty string is returned as is;
      otherwise exactly the backslashes at which the pattern matches are
      deleted. */
  function RemoveUnnecessaryBackslashes(markdown: string): (r: string)
    ensures |markdown| == 0 ==> r == markdown
    ensures r == KeptFrom(markdown, 0)
  {
    if |markdown| == 0 then markdown
    else
      ScanIsKept(markdown, 0);
      ScanFrom(markdown, 0)
  }

  /** Only deletions happen: nothing is inserted or reordered. */
  lemma {:induction false} KeptIsSubseq(s: string, i: nat)
    requires i <= |s|
    ensures IsSubseq(KeptFrom(s, i), s[i..])
    decreases |s| - i
  {
    if i == |s| {
      assert s[i..] == [];
    } else {
      KeptIsSubseq(s, i + 1);
      assert s[i..] == [s[i]] + s[i + 1..];
      if EscapeAt(s, i) {
        assert [] + KeptFrom(s, i + 1) == KeptFrom(s, i + 1);
        SubseqPrepend(KeptFrom(s, i + 1), [s[i]], s[i + 1..]);
      } else {
        SubseqRefl([s[i]]);
        SubseqAppend([s[i]], [s[i]], KeptFrom(s, i + 1), s[i + 1..]);
      }
    }
  }

  /** Only backslashes are deleted: every other character keeps its number of
      occurrences. */
  lemma {:induction false} KeptCounts(s: string, i: nat)
    requires i <= |s|
    ensures multiset(KeptFrom(s, i)) <= multiset(s[i..])
    ensures forall c :: c != '\\' ==> multiset(KeptFrom(s, i))[c] == multiset(s[i..])[c]
    decreases |s| - i
  {
    if i == |s| {
      assert s[i..] == [];
    } else {
      KeptCounts(s, i + 1);
      assert s[i..] == [s[i]] + s[i + 1..];
      CountsStep(if EscapeAt(s, i) then [] else [s[i]], KeptFrom(s, i + 1), s[i], s[i + 1..]);
    }
  }

  /** Putting a character in front of the input, and either it or nothing
      (when it is a backslash) in front of the output, keeps the counts. */
  lemma CountsStep(head: string, kept: string, c0: char, t: string)
    requires head == [c0] || (head == [] && c0 == '\\')
    requires multiset(kept) <= multiset(t)
    requires forall c :: c != '\\' ==> multiset(kept)[c] == multiset(t)[c]
    ensures multiset(head + kept) <= multiset([c0] + t)
    ensures forall c :: c != '\\' ==> multiset(head + kept)[c] == multiset([c0] + t)[c]
  {
    assert multiset([c0] + t) == multiset([c0]) + multiset(t);
    assert multiset(head + kept) == multiset(head) + multiset(kept);
  }

  /** Where the pattern matches nowhere, the text is unchanged. */
  lemma {:induction false} KeptWithoutEscapes(s: string, i: nat)
    requires i <= |s|
    requires forall k :: i <= k < |s| ==> !EscapeAt(s, k)
    ensures KeptFrom(s, i) == s[i..]
    decreases |s| - i
  {
    if i < |s| {
      KeptWithoutEscapes(s, i + 1);
      assert s[i..] == [s[i]] + s[i + 1..];
    }
  }

  /** The same filter, read on the remaining suffix `t` with `prev` the
      character of the ORIGINAL string just before it (the look-behind). */
  function KeptAfter(prev: char, t: string): string
    decreases |t|
  {
    if |t| == 0 then []
    else if t[0] == '\\' && |t| > 1 && t[1] in Escapable && prev != '\\' then KeptAfter('\\', t[1..])
    else [t[0]] + KeptAfter(t[0], t[1..])
  }

  lemma {:induction false} KeptFromIsKeptAfter(s: string, i: nat)
    requires 0 < i <= |s|
    ensures KeptFrom(s, i) == KeptAfter(s[i - 1], s[i..])
    decreases |s| - i
  {
    if i < |s| {
      KeptFromIsKeptAfter(s, i + 1);
      assert s[i..][1..] == s[i + 1..];
    }
  }

  /** From offset 0 there is no look-behind character; any non-backslash
      stands in for it. */
  lemma KeptFromStart(s: string)
    ensures KeptFrom(s, 0) == KeptAfter(' ', s)
  {
    if |s| > 0 {
      KeptFromIsKeptAfter(s, 1);
      assert s[1..] == s[0..][1..];
    }
  }

  /** After a backslash, the first character is always kept. */
  lemma KeptAfterBackslashHead(t: string)
    requires |t| > 0
    ensures |KeptAfter('\\', t)| > 0 && KeptAfter('\\', t)[0] == t[0]
  {
  }

  /** The second pass, scanning the first pass's output with look-behind `q`,
      deletes nothing. Either both passes see the same look-behind, or the
      first pass has just deleted a backslash and the next character is an
      escapable one, which no pass deletes. */
  lemma {:induction false} SecondPassKeepsAll(q: char, p: char, t: string)
    requires q == p || (p == '\\' && |t| > 0 && t[0] in Escapable)
    ensures KeptAfter(q, KeptAfter(p, t)) == KeptAfter(p, t)
    decreases |t|
  {
    if |t| > 0 {
      var c := t[0];
      if c == '\\' && |t| > 1 && t[1] in Escapable && p != '\\' {
        SecondPassKeepsAll(q, '\\', t[1..]);
      } else {
        var rest := KeptAfter(c, t[1..]);
        var out := [c] + rest;
        assert out[1..] == rest;
        if c == '\\' && |t| > 1 && t[1] !in Escapable {
          KeptAfterBackslashHead(t[1..]);
        }
        SecondPassKeepsAll(c, c, t[1..]);
      }
    }
  }

  /** Removing the backslashes a second time removes nothing more. */
  lemma RemoveUnnecessaryBackslashesIdempotent(s: string)
    ensures RemoveUnnecessaryBackslashes(RemoveUnnecessaryBackslashes(s)) == RemoveUnnecessaryBackslashes(s)
  {
    var r := RemoveUnnecessaryBackslashes(s);
    KeptFromStart(s);
    KeptFromStart(r);
    SecondPassKeepsAll(' ', ' ', s);
  }

  /** `\(hi\)` becomes `(hi)`. */
  lemma SingleEscapesRemoved()
    ensures RemoveUnnecessaryBackslashes("\\(hi\\)") == "(hi)"
  {
    var s := "\\(hi\\)";
    assert EscapeAt(s, 0) && !EscapeAt(s, 1) && !EscapeAt(s, 2) && !EscapeAt(s, 3);
    assert EscapeAt(s, 4) && !EscapeAt(s, 5);
  }

  /** `\\(hi\)` becomes `\\(hi)`: the backslash before `(` follows another
      backslash and stays; the one before `)` goes. */
  lemma DoubledEscapeKept()
    ensures RemoveUnnecessaryBackslashes("\\\\(hi\\)") == "\\\\(hi)"
  {
    var s := "\\\\(hi\\)";
    assert !EscapeAt(s, 0) && !EscapeAt(s, 1) && !EscapeAt(s, 2) && !EscapeAt(s, 3);
    assert !EscapeAt(s, 4) && EscapeAt(s, 5) && !EscapeAt(s, 6);
  }
}

=== FILE: controller.dfy ===
/** The tray application's state and its reactions (`SysTrayAppContext`):
    the active switch, the four settings switches of the menu, the global
    hotkey, the hotkey dialog and the clipboard monitor.

    The icon, the tooltip, balloon notifications, saving the settings file and
    re-registering the hotkey with the system are not part of the state.
 */
module Controller {
  import opened Text
  import opened Settings
  import opened HotkeyCapture
  import opened Pipeline

  /** The signature that marks clipboard HTML copied from the editor. */
  const EditorSignature := "SourceURL:vscode-file://"

  /** `_isActive`, `_settings`, and whether `_configForm` holds a dialog that
      has not been disposed. */
  datatype State = State(isActive: bool, settings: AppSettings, configFormHeld: bool)

  /** The state right after start-up, with the settings read from disk (or
      the defaults): inactive, and no dialog created yet. */
  function Startup(loaded: AppSettings): (r: State)
    ensures !r.isActive && r.settings == loaded && !r.configFormHeld
  {
    State(false, loaded, false)
  }

  /** `ToggleActive` (menu item, double click): only the active switch flips. */
  function ToggleActive(st: State): (r: State)
    ensures r.isActive != st.isActive
    ensures r.settings == st.settings && r.configFormHeld == st.configFormHeld
  {
    st.(isActive := !st.isActive)
  }

  /** The four settings switches of the menu. */
  datatype Switch = AutoConvertVsCode | AutoConvertAny | RemoveBackslashes | DecodeHtmlEntities

  function SwitchValue(s: AppSettings, w: Switch): bool {
    match w
    case AutoConvertVsCode => s.autoConvertVsCode
    case AutoConvertAny => s.autoConvertAny
    case RemoveBackslashes => s.removeBackslashes
    case DecodeHtmlEntities => s.decodeHtmlEntities
  }

  /** `ToggleAutoConvertVsCode`, `ToggleAutoConvertAny`,
      `ToggleRemoveBackslashes`, `ToggleDecodeHtmlEntities`: the chosen
      switch flips; the other switches, the hotkey, the active switch and the
      dialog are untouched. */
  function Toggle(st: State, w: Switch): (r: State)
    ensures SwitchValue(r.settings, w) != SwitchValue(st.settings, w)
    ensures forall v :: v != w ==> SwitchValue(r.settings, v) == SwitchValue(st.settings, v)
    ensures r.settings.hotkeyKey == st.settings.hotkeyKey
    ensures r.settings.hotkeyModifiers == st.settings.hotkeyModifiers
    ensures r.isActive == st.isActive && r.configFormHeld == st.configFormHeld
  {
    var s := st.settings;
    var s' := match w
      case AutoConvertVsCode => s.(autoConvertVsCode := !s.autoConvertVsCode)
      case AutoConvertAny => s.(autoConvertAny := !s.autoConvertAny)
      case RemoveBackslashes => s.(removeBackslashes := !s.removeBackslashes)
      case DecodeHtmlEntities => s.(decodeHtmlEntities := !s.decodeHtmlEntities);
    st.(settings := s')
  }

  /** Settings are determined by the hotkey and the four switches. */
  lemma SettingsBySwitches(a: AppSettings, b: AppSettings)
    requires a.hotkeyKey == b.hotkeyKey && a.hotkeyModifiers == b.hotkeyModifiers
    requires forall w :: SwitchValue(a, w) == SwitchValue(b, w)
    ensures a == b
  {
    assert SwitchValue(a, AutoConvertVsCode) == SwitchValue(b, AutoConvertVsCode);
    assert SwitchValue(a, AutoConvertAny) == SwitchValue(b, AutoConvertAny);
    assert SwitchValue(a, RemoveBackslashes) == SwitchValue(b, RemoveBackslashes);
    assert SwitchValue(a, DecodeHtmlEntities) == SwitchValue(b, DecodeHtmlEntities);
  }

  /** Flipping a switch twice restores the state. */
  lemma ToggleTwice(st: State, w: Switch)
    ensures Toggle(Toggle(st, w), w) == st
  {
    SettingsBySwitches(Toggle(Toggle(st, w), w).settings, st.settings);
  }

  /** Flipping two switches in either order gives the same state. */
  lemma TogglesCommute(st: State, v: Switch, w: Switch)
    ensures Toggle(Toggle(st, v), w) == Toggle(Toggle(st, w), v)
  {
    SettingsBySwitches(Toggle(Toggle(st, v), w).settings, Toggle(Toggle(st, w), v).settings);
  }

  /** Toggling the active switch twice restores the state. */
  lemma ToggleActiveTwice(st: State)
    ensures ToggleActive(ToggleActive(st)) == st
  {
  }

  /** The decision of `OnClipboardChanged`: convert when active, some
      automatic mode is on and the clipboard holds HTML, and either every
      HTML is converted or the HTML carries the editor signature in any
      letter case. */
  function ShouldConvert(st: State, hasHtml: bool, raw: string): (r: bool)
    ensures r <==> st.isActive && hasHtml
                   && (st.settings.autoConvertAny
                       || (st.settings.autoConvertVsCode && ContainsIgnoringCase(raw, EditorSignature)))
  {
    if !st.isActive then false
    else if !st.settings.autoConvertVsCode && !st.settings.autoConvertAny then false
    else if !hasHtml then false
    else if st.settings.autoConvertAny then true
    else if st.settings.autoConvertVsCode then IndexOfIgnoringCaseFrom(raw, EditorSignature, 0).Some?
    else false
  }

  /** The events the application reacts to. `SetHotkey`: the "Set Hotkey..."
      menu item, with the key presses made in the dialog and whether it was
      closed with OK. */
  datatype Event =
    | ClipboardChanged(hasHtml: bool, raw: string)
    | HotkeyPressed
    | ActiveClicked
    | SwitchClicked(switch: Switch)
    | SetHotkey(presses: seq<KeyPress>, confirmed: bool)

  /** `ShowConfig` as written: a dialog is created only when none is held,
      and a dialog closed by `ShowDialog` is hidden, not disposed, so it stays
      held and every later "Set Hotkey..." does nothing. The first dialog
      starts from the current hotkey; OK adopts its selection, any other
      close keeps the hotkey. */
  function ShowConfigAsWritten(st: State, presses: seq<KeyPress>, confirmed: bool): (r: State)
    ensures st.configFormHeld ==> r == st
    ensures r.configFormHeld && r.isActive == st.isActive
    ensures forall w :: SwitchValue(r.settings, w) == SwitchValue(st.settings, w)
    ensures !st.configFormHeld && !confirmed ==> r.settings == st.settings
    ensures !st.configFormHeld && confirmed ==>
              r.settings.hotkeyKey == Capture(Selection(st.settings.hotkeyKey, st.settings.hotkeyModifiers), presses).key
    ensures !st.configFormHeld && confirmed ==>
              r.settings.hotkeyModifiers == Capture(Selection(st.settings.hotkeyKey, st.settings.hotkeyModifiers), presses).modifiers
  {
    if st.configFormHeld then st
    else
      var sel := Capture(Selection(st.settings.hotkeyKey, st.settings.hotkeyModifiers), presses);
      var s := if confirmed then st.settings.(hotkeyKey := sel.key, hotkeyModifiers := sel.modifiers)
               else st.settings;
      st.(settings := s, configFormHeld := true)
  }

  /** `ShowConfig` as intended: every "Set Hotkey..." opens the dialog,
      starting from the current hotkey; OK adopts the selection. */
  function ShowConfig(st: State, presses: seq<KeyPress>, confirmed: bool): (r: State)
    ensures !confirmed ==> r == st
    ensures confirmed ==> r.settings.hotkeyKey == Capture(Selection(st.settings.hotkeyKey, st.settings.hotkeyModifiers), presses).key
    ensures confirmed ==> r.settings.hotkeyModifiers == Capture(Selection(st.settings.hotkeyKey, st.settings.hotkeyModifiers), presses).modifiers
    ensures forall w :: SwitchValue(r.settings, w) == SwitchValue(st.settings, w)
    ensures r.isActive == st.isActive && r.configFormHeld == st.configFormHeld
  {
    if confirmed then
      var sel := Capture(Selection(st.settings.hotkeyKey, st.settings.hotkeyModifiers), presses);
      st.(settings := st.settings.(hotkeyKey := sel.key, hotkeyModifiers := sel.modifiers))
    else st
  }

  /** Which "Set Hotkey..." handler a run uses: the one the source has, or
      the corrected one. */
  datatype DialogRule = AsWritten | Corrected

  function SetHotkeyBy(rule: DialogRule, st: State, presses: seq<KeyPress>, confirmed: bool): (r: State)
    ensures forall w :: SwitchValue(r.settings, w) == SwitchValue(st.settings, w)
    ensures r.isActive == st.isActive
    ensures !confirmed ==> r.settings == st.settings
    ensures rule.AsWritten? && st.configFormHeld ==> r == st
    ensures (rule.Corrected? || !st.configFormHeld) && confirmed ==>
              r.settings.hotkeyKey == Capture(Selection(st.settings.hotkeyKey, st.settings.hotkeyModifiers), presses).key
              && r.settings.hotkeyModifiers == Capture(Selection(st.settings.hotkeyKey, st.settings.hotkeyModifiers), presses).modifiers
  {
    match rule
    case AsWritten => ShowConfigAsWritten(st, presses, confirmed)
    case Corrected => ShowConfig(st, presses, confirmed)
  }

  /** Reaction to one event: the next state and what is written to the
      clipboard, if anything. A clipboard change writes exactly when the
      decision says to convert and the pipeline produced a text, and then
      writes that text. */
  function Step(rule: DialogRule, st: State, ev: Event, md: Converter, decode: Decoder): (r: (State, Option<string>))
    ensures r.1.Some? ==> ev.ClipboardChanged? && ShouldConvert(st, ev.hasHtml, ev.raw)
    ensures r.1.Some? ==> ProcessClipboard(st.settings, ev.raw, md, decode) == Written(r.1.value)
    ensures ev.ClipboardChanged? && ShouldConvert(st, ev.hasHtml, ev.raw)
            && ProcessClipboard(st.settings, ev.raw, md, decode).Written?
            ==> r.1 == Some(ProcessClipboard(st.settings, ev.raw, md, decode).text)
    ensures ev.ClipboardChanged? ==> r.0 == st
    ensures Activates(ev) ==> r == (ToggleActive(st), None)
    ensures ev.SwitchClicked? ==> r == (Toggle(st, ev.switch), None)
    ensures ev.SetHotkey? ==> r == (SetHotkeyBy(rule, st, ev.presses, ev.confirmed), None)
  {
    match ev
    case ClipboardChanged(hasHtml, raw) =>
      if ShouldConvert(st, hasHtml, raw) then
        match ProcessClipboard(st.settings, raw, md, decode)
        case Written(text) => (st, Some(text))
        case _ => (st, None)
      else (st, None)
    case HotkeyPressed => (ToggleActive(st), None)
    case ActiveClicked => (ToggleActive(st), None)
    case SwitchClicked(w) => (Toggle(st, w), None)
    case SetHotkey(presses, confirmed) => (SetHotkeyBy(rule, st, presses, confirmed), None)
  }

  /** A sequence of events: the final state and the texts written, in order.
      At most one text per clipboard change, and none without one. */
  function Run(rule: DialogRule, st: State, evs: seq<Event>, md: Converter, decode: Decoder): (r: (State, seq<string>))
    ensures |r.1| <= ClipboardChanges(evs)
    ensures |evs| == 0 ==> r == (st, [])
    decreases |evs|
  {
    if |evs| == 0 then (st, [])
    else
      var (next, out) := Step(rule, st, evs[0], md, decode);
      var (last, rest) := Run(rule, next, evs[1..], md, decode);
      (last, Emitted(out) + rest)
  }

  /** What one step writes, as a sequence of at most one text. */
  function Emitted(out: Option<string>): (r: seq<string>)
    ensures |r| <= 1 && (r == [] <==> out.None?)
  {
    if out.Some? then [out.value] else []
  }

  /** The number of clipboard changes among `evs`. */
  function ClipboardChanges(evs: seq<Event>): nat
    decreases |evs|
  {
    if |evs| == 0 then 0
    else (if evs[0].ClipboardChanged? then 1 else 0) + ClipboardChanges(evs[1..])
  }

  /** One step of a run: the first event, then the rest from the state it
      leaves. */
  lemma RunStep(rule: DialogRule, st: State, evs: seq<Event>, md: Converter, decode: Decoder)
    requires |evs| > 0
    ensures var (next, out) := Step(rule, st, evs[0], md, decode);
            Run(rule, st, evs, md, decode)
            == (Run(rule, next, evs[1..], md, decode).0, Emitted(out) + Run(rule, next, evs[1..], md, decode).1)
  {
  }

  /** The first step of a run over `evs1`, and of one over `evs1 + evs2`,
      is the same: both go on from `next`, after writing `w`. */
  lemma RunFirstStep(rule: DialogRule, st: State, evs1: seq<Event>, evs2: seq<Event>, md: Converter, decode: Decoder)
    returns (next: State, w: seq<string>)
    requires |evs1| > 0
    ensures Run(rule, st, evs1, md, decode)
            == (Run(rule, next, evs1[1..], md, decode).0, w + Run(rule, next, evs1[1..], md, decode).1)
    ensures Run(rule, st, evs1 + evs2, md, decode)
            == (Run(rule, next, evs1[1..] + evs2, md, decode).0, w + Run(rule, next, evs1[1..] + evs2, md, decode).1)
  {
    var evs := evs1 + evs2;
    assert evs[0] == evs1[0] && evs[1..] == evs1[1..] + evs2;
    next := Step(rule, st, evs1[0], md, decode).0;
    w := Emitted(Step(rule, st, evs1[0], md, decode).1);
    RunStep(rule, st, evs, md, decode);
    RunStep(rule, st, evs1, md, decode);
  }

  /** Running two sequences of events one after the other is running their
      concatenation: the second run starts where the first ends, and the
      written texts follow each other. */
  lemma {:induction false} RunAppend(rule: DialogRule, st: State, evs1: seq<Event>, evs2: seq<Event>,
                                     md: Converter, decode: Decoder)
    ensures Run(rule, st, evs1 + evs2, md, decode).0
            == Run(rule, Run(rule, st, evs1, md, decode).0, evs2, md, decode).0
    ensures Run(rule, st, evs1 + evs2, md, decode).1
            == Run(rule, st, evs1, md, decode).1 + Run(rule, Run(rule, st, evs1, md, decode).0, evs2, md, decode).1
    decreases |evs1|
  {
    if |evs1| == 0 {
      assert evs1 + evs2 == evs2;
    } else {
      var next, w := RunFirstStep(rule, st, evs1, evs2, md, decode);
      RunAppend(rule, next, evs1[1..], evs2, md, decode);
      Glued(Run(rule, st, evs1 + evs2, md, decode), Run(rule, st, evs1, md, decode),
            Run(rule, next, evs1[1..] + evs2, md, decode), Run(rule, next, evs1[1..], md, decode),
            Run(rule, Run(rule, next, evs1[1..], md, decode).0, evs2, md, decode), w);
    }
  }

  /** The bookkeeping of one induction step of `RunAppend`: `x` and `y` run
      `w` before `p` and `q`, and `p` is `q` followed by `z`. */
  lemma Glued(x: (State, seq<string>), y: (State, seq<string>), p: (State, seq<string>),
              q: (State, seq<string>), z: (State, seq<string>), w: seq<string>)
    requires x == (p.0, w + p.1) && y == (q.0, w + q.1)
    requires p.0 == z.0 && p.1 == q.1 + z.1
    ensures x.0 == z.0 && x.1 == y.1 + z.1
  {
    assert w + (q.1 + z.1) == (w + q.1) + z.1;
  }

  /** The hotkey only toggles the active switch; it never converts. */
  lemma HotkeyOnlyToggles(rule: DialogRule, st: State, md: Converter, decode: Decoder)
    ensures Step(rule, st, HotkeyPressed, md, decode) == (ToggleActive(st), None)
  {
  }

  /** An event that can switch the tool on. */
  predicate Activates(ev: Event) {
    ev.HotkeyPressed? || ev.ActiveClicked?
  }

  /** While inactive, and with no event that could activate the tool,
      nothing is ever written. */
  lemma {:induction false} InactiveRunWritesNothing(rule: DialogRule, st: State, evs: seq<Event>, md: Converter, decode: Decoder)
    requires !st.isActive
    requires forall i :: 0 <= i < |evs| ==> !Activates(evs[i])
    ensures Run(rule, st, evs, md, decode).1 == []
    ensures !Run(rule, st, evs, md, decode).0.isActive
    decreases |evs|
  {
    if |evs| > 0 {
      var next := Step(rule, st, evs[0], md, decode).0;
      assert !next.isActive;
      assert forall i :: 0 <= i < |evs[1..]| ==> !Activates(evs[1..][i]) by {
        forall i | 0 <= i < |evs[1..]| ensures !Activates(evs[1..][i]) {
          assert evs[1..][i] == evs[i + 1];
        }
      }
      InactiveRunWritesNothing(rule, next, evs[1..], md, decode);
    }
  }

  /** The tool starts inactive: after start-up, whatever the settings,
      events that cannot activate it never write anything. */
  lemma StartupWritesNothing(rule: DialogRule, loaded: AppSettings, evs: seq<Event>, md: Converter, decode: Decoder)
    requires forall i :: 0 <= i < |evs| ==> !Activates(evs[i])
    ensures Run(rule, Startup(loaded), evs, md, decode).1 == []
    ensures !Run(rule, Startup(loaded), evs, md, decode).0.isActive
  {
    InactiveRunWritesNothing(rule, Startup(loaded), evs, md, decode);
  }

  /** An event that can switch an automatic mode on. */
  predicate EnablesAutoConvert(ev: Event) {
    ev.SwitchClicked? && (ev.switch == AutoConvertVsCode || ev.switch == AutoConvertAny)
  }

  /** With both automatic modes off, and no event that could switch one on,
      nothing is ever written. */
  lemma {:induction false} NoAutoModeWritesNothing(rule: DialogRule, st: State, evs: seq<Event>, md: Converter, decode: Decoder)
    requires !st.settings.autoConvertVsCode && !st.settings.autoConvertAny
    requires forall i :: 0 <= i < |evs| ==> !EnablesAutoConvert(evs[i])
    ensures Run(rule, st, evs, md, decode).1 == []
    decreases |evs|
  {
    if |evs| > 0 {
      var next := Step(rule, st, evs[0], md, decode).0;
      if evs[0].SwitchClicked? || evs[0].SetHotkey? {
        assert SwitchValue(next.settings, AutoConvertVsCode) == SwitchValue(st.settings, AutoConvertVsCode);
        assert SwitchValue(next.settings, AutoConvertAny) == SwitchValue(st.settings, AutoConvertAny);
      }
      assert forall i :: 0 <= i < |evs[1..]| ==> !EnablesAutoConvert(evs[1..][i]) by {
        forall i | 0 <= i < |evs[1..]| ensures !EnablesAutoConvert(evs[1..][i]) {
          assert evs[1..][i] == evs[i + 1];
        }
      }
      NoAutoModeWritesNothing(rule, next, evs[1..], md, decode);
    }
  }

  /** Every reachable hotkey is one the dialog can produce, provided the
      start-up one was. */
  lemma {:induction false} RunKeepsValidHotkey(rule: DialogRule, st: State, evs: seq<Event>, md: Converter, decode: Decoder)
    requires ValidModifiers(st.settings.hotkeyModifiers)
    ensures ValidModifiers(Run(rule, st, evs, md, decode).0.settings.hotkeyModifiers)
    decreases |evs|
  {
    if |evs| > 0 {
      var next := Step(rule, st, evs[0], md, decode).0;
      if evs[0].SetHotkey? {
        CaptureKeepsValid(Selection(st.settings.hotkeyKey, st.settings.hotkeyModifiers), evs[0].presses);
      }
      RunKeepsValidHotkey(rule, next, evs[1..], md, decode);
    }
  }

  /** An active tool in the default editor-only mode writes the pipeline's
      text for editor HTML. */
  lemma EditorHtmlWritesPipelineResult(rule: DialogRule, st: State, raw: string, md: Converter, decode: Decoder, text: string)
    requires st.isActive && st.settings.autoConvertVsCode
    requires ContainsIgnoringCase(raw, EditorSignature)
    requires ProcessClipboard(st.settings, raw, md, decode) == Written(text)
    ensures Step(rule, st, ClipboardChanged(true, raw), md, decode) == (st, Some(text))
  {
  }

  /** With every HTML converted, an active tool writes exactly what the
      pipeline produces. */
  lemma ConvertAnyWritesPipelineResult(rule: DialogRule, st: State, raw: string, md: Converter, decode: Decoder, text: string)
    requires st.isActive && st.settings.autoConvertAny
    requires ProcessClipboard(st.settings, raw, md, decode) == Written(text)
    ensures Step(rule, st, ClipboardChanged(true, raw), md, decode) == (st, Some(text))
  {
  }

  /** The two "Set Hotkey..." dialogs of the examples below: Ctrl+Alt+K, then
      Ctrl+J, each closed with OK. */
  function TwoHotkeyChanges(): seq<Event> {
    [SetHotkey([KeyPress(75, true, true, false)], true), SetHotkey([KeyPress(74, true, false, false)], true)]
  }

  /** As written, a second "Set Hotkey..." is ignored: after a first dialog
      closed with OK, a second one closed with OK and a different choice
      leaves the first choice in place. */
  lemma SecondHotkeyChangeIgnored(md: Converter, decode: Decoder)
    ensures Run(AsWritten, Startup(Defaults()), TwoHotkeyChanges(), md, decode).0.settings.hotkeyKey == 75
  {
    var st0 := Startup(Defaults());
    var evs := TwoHotkeyChanges();
    var p1 := [KeyPress(75, true, true, false)];
    assert Capture(Selection(st0.settings.hotkeyKey, st0.settings.hotkeyModifiers), p1)
        == Capture(OnKeyDown(Selection(KeyM, Control + Shift), p1[0]), p1[1..]);
    var st1 := ShowConfigAsWritten(st0, p1, true);
    assert Run(AsWritten, st0, evs, md, decode).0 == Run(AsWritten, st1, evs[1..], md, decode).0;
    assert Run(AsWritten, st1, evs[1..], md, decode).0 == Run(AsWritten, st1, [], md, decode).0;
  }

  /** As intended, the second choice is adopted. */
  lemma SecondHotkeyChangeAdopted(md: Converter, decode: Decoder)
    ensures Run(Corrected, Startup(Defaults()), TwoHotkeyChanges(), md, decode).0.settings.hotkeyKey == 74
  {
    var st0 := Startup(Defaults());
    var evs := TwoHotkeyChanges();
    var p1 := [KeyPress(75, true, true, false)];
    var p2 := [KeyPress(74, true, false, false)];
    assert Capture(Selection(st0.settings.hotkeyKey, st0.settings.hotkeyModifiers), p1)
        == Capture(OnKeyDown(Selection(KeyM, Control + Shift), p1[0]), p1[1..]);
    var st1 := ShowConfig(st0, p1, true);
    assert Capture(Selection(st1.settings.hotkeyKey, st1.settings.hotkeyModifiers), p2)
        == Capture(OnKeyDown(Selection(st1.settings.hotkeyKey, st1.settings.hotkeyModifiers), p2[0]), p2[1..]);
    var st2 := ShowConfig(st1, p2, true);
    assert Run(Corrected, st0, evs, md, decode).0 == Run(Corrected, st1, evs[1..], md, decode).0;
    assert Run(Corrected, st1, evs[1..], md, decode).0 == Run(Corrected, st2, [], md, decode).0;
  }
}

=== FILE: fragment.dfy ===
/** Isolating the copied selection from an "HTML Format" clipboard payload
    (`ExtractFragment`). The payload is a header followed by an HTML document
    whose selection is delimited by two sentinel comments.
 */
module Fragment {
  import opened Text

  const StartMarker := "<!--StartFragment-->"
  const EndMarker := "<!--EndFragment-->"

  /** The outcome of `ExtractFragment`: the extracted (or unchanged) text, or
      the `ArgumentOutOfRangeException` that `Substring` throws when the end
      marker is found before the end of the start marker. */
  datatype Extraction = Extracted(text: string) | MarkersOutOfOrder

  /** `ExtractFragment`: the text strictly between the first start marker and
      the first end marker when both occur; the whole payload when either is
      missing; a failure when the first end marker begins before the first
      start marker ends. */
  function ExtractFragment(raw: string): (r: Extraction)
    ensures !Contains(raw, StartMarker) || !Contains(raw, EndMarker) ==> r == Extracted(raw)
    ensures forall i: nat, j: nat | FirstAt(raw, StartMarker, i) && FirstAt(raw, EndMarker, j) ::
              if i + |StartMarker| <= j then r == Extracted(raw[i + |StartMarker|..j])
              else r == MarkersOutOfOrder
  {
    var start := IndexOf(raw, StartMarker);
    var end := IndexOf(raw, EndMarker);
    if start.Some? && end.Some? then
      var from := start.value + |StartMarker|;
      if end.value < from then MarkersOutOfOrder
      else Extracted(raw[from..end.value])
    else Extracted(raw)
  }

  /** Each marker holds `<` only at its first character. */
  lemma AngleOnlyFirst()
    ensures forall d :: 1 <= d < |StartMarker| ==> StartMarker[d] != '<'
    ensures forall d :: 1 <= d < |EndMarker| ==> EndMarker[d] != '<'
  {
  }

  /** An occurrence of `pat` that starts before a `<` at offset `b` and
      reaches past it would put a later character of `pat` on that `<`. */
  lemma NoStraddle(s: string, pat: string, b: nat, k: nat)
    requires k < b < k + |pat| && b < |s| && s[b] == '<' && pat[b - k] != '<'
    ensures !IsAt(s, pat, k)
  {
    assert s[k + (b - k)] != pat[b - k];
  }

  /** An occurrence inside the slice `s[a..b]` is one of the slice. */
  lemma InSlice(s: string, pat: string, a: nat, b: nat, k: nat)
    requires a <= k && k + |pat| <= b <= |s| && IsAt(s, pat, k)
    ensures Contains(s[a..b], pat)
  {
    forall d | 0 <= d < |pat| ensures s[a..b][k - a + d] == pat[d] {
      assert s[a..b][k - a + d] == s[k + d];
    }
    assert IsAt(s[a..b], pat, k - a);
  }

  /** The layout of a payload: `pre`, start marker at `i`, `mid`, end marker
      at `j`. */
  predicate Layout(s: string, pre: string, mid: string, i: nat, j: nat) {
    && i == |pre| && j == i + |StartMarker| + |mid| && j + |EndMarker| <= |s|
    && s[..i] == pre && s[i + |StartMarker|..j] == mid
    && IsAt(s, StartMarker, i) && IsAt(s, EndMarker, j)
  }

  /** Before `i`, no start marker occurs. */
  lemma NoEarlierStart(s: string, pre: string, mid: string, i: nat, j: nat, k: nat)
    requires Layout(s, pre, mid, i, j) && !Contains(pre, StartMarker)
    requires k < i
    ensures !IsAt(s, StartMarker, k)
  {
    AngleOnlyFirst();
    assert s[i] == StartMarker[0];
    if k + |StartMarker| <= i {
      if IsAt(s, StartMarker, k) {
        InSlice(s, StartMarker, 0, i, k);
      }
    } else {
      NoStraddle(s, StartMarker, i, k);
    }
  }

  /** Before `j`, no end marker occurs. */
  lemma NoEarlierEnd(s: string, pre: string, mid: string, i: nat, j: nat, k: nat)
    requires Layout(s, pre, mid, i, j) && !Contains(pre, EndMarker) && !Contains(mid, EndMarker)
    requires k < j
    ensures !IsAt(s, EndMarker, k)
  {
    AngleOnlyFirst();
    assert s[i] == StartMarker[0];
    assert s[j] == EndMarker[0];
    if k + |EndMarker| <= i {
      if IsAt(s, EndMarker, k) {
        InSlice(s, EndMarker, 0, i, k);
      }
    } else if k < i {
      NoStraddle(s, EndMarker, i, k);
    } else if k == i {
      assert s[k + 4] == StartMarker[4] != EndMarker[4];
    } else if k < i + |StartMarker| {
      assert s[k] == StartMarker[k - i] != EndMarker[0];
    } else if k + |EndMarker| <= j {
      if IsAt(s, EndMarker, k) {
        InSlice(s, EndMarker, i + |StartMarker|, j, k);
      }
    } else {
      NoStraddle(s, EndMarker, j, k);
    }
  }

  lemma LayoutOf(pre: string, mid: string, post: string)
    ensures Layout(pre + StartMarker + mid + EndMarker + post, pre, mid,
                   |pre|, |pre| + |StartMarker| + |mid|)
  {
    var s := pre + StartMarker + mid + EndMarker + post;
    var i := |pre|;
    var j := |pre| + |StartMarker| + |mid|;
    assert IsAt(s, StartMarker, i) by {
      forall d | 0 <= d < |StartMarker| ensures s[i + d] == StartMarker[d] {
        assert s[i + d] == (pre + StartMarker)[i + d];
      }
    }
    assert IsAt(s, EndMarker, j) by {
      forall d | 0 <= d < |EndMarker| ensures s[j + d] == EndMarker[d] {
        assert s[j + d] == (pre + StartMarker + mid + EndMarker)[j + d];
      }
    }
    assert s[..i] == pre;
    assert s[i + |StartMarker|..j] == mid;
  }

  lemma ExtractAtLayout(s: string, pre: string, mid: string, i: nat, j: nat)
    requires Layout(s, pre, mid, i, j)
    requires !Contains(pre, StartMarker) && !Contains(pre, EndMarker) && !Contains(mid, EndMarker)
    ensures ExtractFragment(s) == Extracted(mid)
  {
    forall k: nat | k < i ensures !IsAt(s, StartMarker, k) {
      NoEarlierStart(s, pre, mid, i, j, k);
    }
    forall k: nat | k < j ensures !IsAt(s, EndMarker, k) {
      NoEarlierEnd(s, pre, mid, i, j, k);
    }
    assert FirstAt(s, StartMarker, i);
    assert FirstAt(s, EndMarker, j);
  }

  /** A payload laid out as `pre`, start marker, `mid`, end marker, `post`
      yields exactly `mid`, provided no marker occurs in `pre` and no end
      marker occurs in `mid`. Other comments may appear anywhere. */
  lemma ExtractBetweenMarkers(pre: string, mid: string, post: string)
    requires !Contains(pre, StartMarker) && !Contains(pre, EndMarker) && !Contains(mid, EndMarker)
    ensures ExtractFragment(pre + StartMarker + mid + EndMarker + post) == Extracted(mid)
  {
    LayoutOf(pre, mid, post);
    ExtractAtLayout(pre + StartMarker + mid + EndMarker + post, pre, mid,
                    |pre|, |pre| + |StartMarker| + |mid|);
  }

  /** A comment inside the fragment does not disturb extraction. */
  lemma CommentInsideFragment()
    ensures ExtractFragment(StartMarker + "<!-- c -->" + EndMarker) == Extracted("<!-- c -->")
  {
    var mid := "<!-- c -->";
    forall k | 0 <= k <= |mid| ensures !IsAt(mid, EndMarker, k) {
    }
    assert "" + StartMarker + mid + EndMarker + "" == StartMarker + mid + EndMarker;
    ExtractBetweenMarkers("", mid, "");
  }
}

=== FILE: hotkey.dfy ===
/** The hotkey dialog's selection rule (`ConfigForm.OnKeyDown`): the dialog
    starts from the current hotkey and every key press that comes with at
    least one modifier replaces the selection. */
module HotkeyCapture {
  import opened Settings

  /** The part of `KeyEventArgs` the rule reads. */
  datatype KeyPress = KeyPress(keyCode: int, control: bool, alt: bool, shift: bool)

  /** `SelectedKey` and `SelectedModifiers`. */
  datatype Selection = Selection(key: int, modifiers: int)

  /** A press of a modifier key on its own. */
  predicate IsModifierKey(keyCode: int) {
    keyCode == ControlKey || keyCode == ShiftKey || keyCode == MenuKey
  }

  /** A press the rule accepts: not a modifier key, with some modifier held. */
  predicate Accepted(e: KeyPress) {
    !IsModifierKey(e.keyCode) && (e.control || e.alt || e.shift)
  }

  /** The modifier mask of a press: the flags of the held modifiers, or-ed
      together. */
  function ModifiersOf(e: KeyPress): int {
    (if e.control then Control else 0) + (if e.alt then Alt else 0) + (if e.shift then Shift else 0)
  }

  /** `OnKeyDown`: an accepted press becomes the selection; any other press
      leaves it alone. */
  function OnKeyDown(sel: Selection, e: KeyPress): (r: Selection)
    ensures !Accepted(e) ==> r == sel
    ensures Accepted(e) ==> r.key == e.keyCode
    ensures Accepted(e) ==> (HasFlag(r.modifiers, Control) <==> e.control)
    ensures Accepted(e) ==> (HasFlag(r.modifiers, Alt) <==> e.alt)
    ensures Accepted(e) ==> (HasFlag(r.modifiers, Shift) <==> e.shift)
    ensures Accepted(e) ==> !HasFlag(r.modifiers, Win) && ValidModifiers(r.modifiers)
  {
    if IsModifierKey(e.keyCode) then sel
    else
      var mods := ModifiersOf(e);
      if mods != 0 then Selection(e.keyCode, mods) else sel
  }

  /** The dialog's selection after a sequence of presses: the one it started
      from, or what one of the accepted presses selects. */
  function Capture(sel: Selection, presses: seq<KeyPress>): (r: Selection)
    ensures r == sel || exists i :: 0 <= i < |presses| && Accepted(presses[i]) && r == OnKeyDown(sel, presses[i])
    decreases |presses|
  {
    if |presses| == 0 then sel
    else
      var next := OnKeyDown(sel, presses[0]);
      var r := Capture(next, presses[1..]);
      assert r == sel || exists i :: 0 <= i < |presses| && Accepted(presses[i]) && r == OnKeyDown(sel, presses[i]) by {
        if r != next {
          var i :| 0 <= i < |presses[1..]| && Accepted(presses[1..][i]) && r == OnKeyDown(next, presses[1..][i]);
          assert presses[1..][i] == presses[i + 1];
        } else if next != sel {
          assert Accepted(presses[0]);
        }
      }
      r
  }

  /** No press from `i` on is accepted. */
  predicate NoneAcceptedFrom(presses: seq<KeyPress>, i: nat) {
    forall j :: i <= j < |presses| ==> !Accepted(presses[j])
  }

  lemma NoneAcceptedInTail(presses: seq<KeyPress>, i: nat)
    requires 1 <= i <= |presses| && NoneAcceptedFrom(presses, i)
    ensures NoneAcceptedFrom(presses[1..], i - 1)
  {
    forall j | i - 1 <= j < |presses[1..]| ensures !Accepted(presses[1..][j]) {
      assert presses[1..][j] == presses[j + 1];
    }
  }

  /** The last accepted press decides the selection; without one the
      selection is the one the dialog started from. */
  lemma {:induction false} CaptureIsLastAccepted(sel: Selection, presses: seq<KeyPress>)
    ensures NoneAcceptedFrom(presses, 0) ==> Capture(sel, presses) == sel
    ensures forall i :: 0 <= i < |presses| && Accepted(presses[i]) && NoneAcceptedFrom(presses, i + 1)
                        ==> Capture(sel, presses) == OnKeyDown(sel, presses[i])
    decreases |presses|
  {
    if |presses| > 0 {
      var next := OnKeyDown(sel, presses[0]);
      CaptureIsLastAccepted(next, presses[1..]);
      forall i | 0 <= i < |presses| && Accepted(presses[i]) && NoneAcceptedFrom(presses, i + 1)
        ensures Capture(sel, presses) == OnKeyDown(sel, presses[i])
      {
        NoneAcceptedInTail(presses, i + 1);
        if i > 0 {
          assert presses[1..][i - 1] == presses[i];
        }
      }
      if NoneAcceptedFrom(presses, 0) {
        NoneAcceptedInTail(presses, 1);
      }
    }
  }

  /** Starting from a valid hotkey, the dialog only ever selects a valid one. */
  lemma {:induction false} CaptureKeepsValid(sel: Selection, presses: seq<KeyPress>)
    requires ValidModifiers(sel.modifiers)
    ensures ValidModifiers(Capture(sel, presses).modifiers)
    decreases |presses|
  {
    if |presses| > 0 {
      CaptureKeepsValid(OnKeyDown(sel, presses[0]), presses[1..]);
    }
  }

  /** Ctrl+Alt+K replaces Ctrl+Shift+M; a lone Shift press, or K without a
      modifier, does not. */
  lemma CaptureExample()
    ensures Capture(Selection(KeyM, Control + Shift),
                    [KeyPress(ShiftKey, false, false, true), KeyPress(75, true, true, false), KeyPress(75, false, false, false)])
            == Selection(75, Control + Alt)
  {
    var presses := [KeyPress(ShiftKey, false, false, true), KeyPress(75, true, true, false), KeyPress(75, false, false, false)];
    var start := Selection(KeyM, Control + Shift);
    assert !Accepted(presses[0]) && Accepted(presses[1]) && !Accepted(presses[2]);
    CaptureIsLastAccepted(start, presses);
  }
}

=== FILE: pipeline.dfy ===
/** The conversion performed on a clipboard change (`ProcessClipboard`, as
    called from the clipboard monitor with the HTML already read).

    The HTML-to-Markdown converter and the entity decoder are library calls
    whose behaviour is not modelled: they are parameters.
 */
module Pipeline {
  import opened Text
  import opened Subsequences
  import opened Settings
  import opened Fragment
  import opened Strip
  import opened Backslashes
  import opened StripRules

  /** `ReverseMarkdown.Converter.Convert` and `WebUtility.HtmlDecode`. */
  type Converter = string -> string
  type Decoder = string -> string

  /** What happens to the clipboard. `BlankFragment`: the fragment is
      null, empty or white space and nothing is converted. `ExtractionFailed`:
      `Substring` throws on out-of-order markers; the exception is swallowed by
      the caller. `EmptyMarkdown`: `Clipboard.SetText` refuses an empty string;
      the exception is swallowed. `Written`: the text placed on the clipboard. */
  datatype Outcome = BlankFragment | ExtractionFailed | EmptyMarkdown | Written(text: string)

  /** Steps 4.1 and 4.2: optional entity decoding, then optional backslash
      removal, on the converter's output. */
  function Postprocess(settings: AppSettings, decode: Decoder, markdown: string): (r: string)
    ensures !settings.decodeHtmlEntities && !settings.removeBackslashes ==> r == markdown
    ensures settings.removeBackslashes ==>
              IsSubseq(r, if settings.decodeHtmlEntities then decode(markdown) else markdown)
    ensures settings.removeBackslashes ==> RemoveUnnecessaryBackslashes(r) == r
  {
    var decoded := if settings.decodeHtmlEntities then decode(markdown) else markdown;
    if settings.removeBackslashes then
      KeptIsSubseq(decoded, 0);
      assert decoded[0..] == decoded;
      RemoveUnnecessaryBackslashesIdempotent(decoded);
      RemoveUnnecessaryBackslashes(decoded)
    else decoded
  }

  /** `ProcessClipboard` on the payload `raw`. */
  function ProcessClipboard(settings: AppSettings, raw: string, md: Converter, decode: Decoder): (r: Outcome)
    ensures r.ExtractionFailed? <==> ExtractFragment(raw).MarkersOutOfOrder?
    ensures r.BlankFragment? <==> ExtractFragment(raw).Extracted? && IsBlank(ExtractFragment(raw).text)
    ensures r.EmptyMarkdown? || r.Written? ==>
              ExtractFragment(raw).Extracted? && !IsBlank(ExtractFragment(raw).text)
    ensures r.Written? ==> |r.text| > 0
    ensures r.Written? && settings.removeBackslashes ==>
              RemoveUnnecessaryBackslashes(r.text) == r.text
  {
    match ExtractFragment(raw)
    case MarkersOutOfOrder => ExtractionFailed
    case Extracted(fragment) =>
      if IsBlank(fragment) then BlankFragment
      else
        var markdown := md(RemoveVsCodeLinks(fragment));
        var text := Postprocess(settings, decode, markdown);
        if |text| == 0 then EmptyMarkdown else Written(text)
  }

  /** With both clean-up stages off the converter's output is written as
      is; with only one on, only that one applies; with both on, decoding
      comes first. Backslash removal only deletes characters. */
  lemma StagesFollowFlags(settings: AppSettings, decode: Decoder, markdown: string)
    ensures !settings.decodeHtmlEntities && !settings.removeBackslashes ==>
              Postprocess(settings, decode, markdown) == markdown
    ensures settings.decodeHtmlEntities && !settings.removeBackslashes ==>
              Postprocess(settings, decode, markdown) == decode(markdown)
    ensures !settings.decodeHtmlEntities && settings.removeBackslashes ==>
              Postprocess(settings, decode, markdown) == RemoveUnnecessaryBackslashes(markdown)
              && IsSubseq(Postprocess(settings, decode, markdown), markdown)
    ensures settings.decodeHtmlEntities && settings.removeBackslashes ==>
              Postprocess(settings, decode, markdown) == RemoveUnnecessaryBackslashes(decode(markdown))
              && IsSubseq(Postprocess(settings, decode, markdown), decode(markdown))
  {
    var decoded := if settings.decodeHtmlEntities then decode(markdown) else markdown;
    if settings.removeBackslashes {
      KeptIsSubseq(decoded, 0);
      assert decoded[0..] == decoded;
    }
  }

  /** A decoder that turns the entity for a backslash into a backslash, and
      nothing else. */
  function BackslashEntityDecoder(): Decoder {
    m => if m == "&#92;(" then "\\(" else m
  }

  /** Decoding comes first: an escape produced by decoding is itself removed.
      Removing backslashes first and decoding afterwards would leave `\(`. */
  lemma DecodingPrecedesBackslashRemoval()
    ensures Postprocess(Defaults(), BackslashEntityDecoder(), "&#92;(") == "("
    ensures BackslashEntityDecoder()(RemoveUnnecessaryBackslashes("&#92;(")) == "\\("
  {
    var s := "\\(";
    assert EscapeAt(s, 0) && !EscapeAt(s, 1);
    var t := "&#92;(";
    assert forall k :: 0 <= k < |t| ==> !EscapeAt(t, k);
    KeptWithoutEscapes(t, 0);
    assert t[0..] == t;
  }

  /** A payload whose fragment sits between the two markers, with no marker
      before it and no end marker inside it: the converter sees the fragment
      with the editor links removed, and its clean-up is written unless it is
      empty. */
  lemma ConvertsFragmentBetweenMarkers(settings: AppSettings, pre: string, fragment: string, post: string,
                                       md: Converter, decode: Decoder)
    requires !Contains(pre, StartMarker) && !Contains(pre, EndMarker) && !Contains(fragment, EndMarker)
    requires !IsBlank(fragment)
    ensures var text := Postprocess(settings, decode, md(RemoveVsCodeLinks(fragment)));
            ProcessClipboard(settings, pre + StartMarker + fragment + EndMarker + post, md, decode)
            == if |text| == 0 then EmptyMarkdown else Written(text)
  {
    ExtractBetweenMarkers(pre, fragment, post);
  }

  /** A payload whose fragment between the markers is blank converts nothing. */
  lemma BlankFragmentConvertsNothing(settings: AppSettings, pre: string, fragment: string, post: string,
                                     md: Converter, decode: Decoder)
    requires !Contains(pre, StartMarker) && !Contains(pre, EndMarker) && !Contains(fragment, EndMarker)
    requires IsBlank(fragment)
    ensures ProcessClipboard(settings, pre + StartMarker + fragment + EndMarker + post, md, decode) == BlankFragment
  {
    ExtractBetweenMarkers(pre, fragment, post);
  }

  /** A payload without markers is converted whole. */
  lemma ConvertsWholePayloadWithoutMarkers(settings: AppSettings, raw: string, md: Converter, decode: Decoder)
    requires !Contains(raw, StartMarker) && !IsBlank(raw)
    ensures var text := Postprocess(settings, decode, md(RemoveVsCodeLinks(raw)));
            ProcessClipboard(settings, raw, md, decode) == if |text| == 0 then EmptyMarkdown else Written(text)
  {
  }

  /** The editor anchor of the worked example holds no end marker and is not
      blank. */
  lemma AnchorIsPlainFragment(a: string)
    requires a == "<a href=\"vscode-file://x\">label</a>"
    ensures !Contains(a, EndMarker) && !IsBlank(a)
  {
    assert !IsSpace(a[0]);
    forall k | 0 <= k <= |a| ensures !IsAt(a, EndMarker, k) {
      if k + |EndMarker| <= |a| {
        if a[k] != '<' {
          assert a[k + 0] != EndMarker[0];
        } else {
          assert a[k + 1] != EndMarker[1];
        }
      }
    }
  }

  /** End to end: an editor anchor copied between the markers reaches the
      converter as its bare text. */
  lemma EditorAnchorReachesConverterAsText(settings: AppSettings, pre: string, post: string,
                                           md: Converter, decode: Decoder)
    requires !Contains(pre, StartMarker) && !Contains(pre, EndMarker)
    ensures var text := Postprocess(settings, decode, md("label"));
            ProcessClipboard(settings, pre + StartMarker + "<a href=\"vscode-file://x\">label</a>" + EndMarker + post, md, decode)
            == if |text| == 0 then EmptyMarkdown else Written(text)
  {
    var a := "<a href=\"vscode-file://x\">label</a>";
    AnchorIsPlainFragment(a);
    AnchorExample(a);
    ConvertsFragmentBetweenMarkers(settings, pre, a, post, md, decode);
  }
}

=== FILE: settings.dfy ===
/** The persisted user settings (`AppSettings`) and the key and modifier
    codes they hold.

    Key codes are the `System.Windows.Forms.Keys` values; modifier masks are
    the `KeyModifiers` flags of the hotkey registration, combined with `|`.
 */
module Settings {

  /** `Keys.M`, `Keys.ShiftKey`, `Keys.ControlKey` and `Keys.Menu` (Alt). */
  const KeyM: int := 77
  const ShiftKey: int := 16
  const ControlKey: int := 17
  const MenuKey: int := 18

  /** The `KeyModifiers` flags. */
  const Alt: int := 1
  const Control: int := 2
  const Shift: int := 4
  const Win: int := 8

  /** Flag `flag` (a power of two) is set in the mask `mask`. */
  predicate HasFlag(mask: int, flag: int)
    requires flag > 0
  {
    mask >= 0 && (mask / flag) % 2 == 1
  }

  datatype AppSettings = AppSettings(
    hotkeyKey: int,
    hotkeyModifiers: int,
    autoConvertVsCode: bool,
    autoConvertAny: bool,
    removeBackslashes: bool,
    decodeHtmlEntities: bool)

  /** The property initialisers of `AppSettings`, used when no settings file
      could be read. */
  function Defaults(): AppSettings {
    AppSettings(KeyM, Control + Shift, true, false, true, true)
  }

  /** A hotkey the tool itself can produce: a mask of Control, Alt and Shift
      with at least one of them set, and no Win. */
  predicate ValidModifiers(mask: int) {
    1 <= mask <= 7
  }

  /** The default hotkey is Ctrl+Shift+M; only VS Code clipboard contents are
      converted automatically, and both clean-up stages are on. */
  lemma DefaultsMeaning()
    ensures Defaults().hotkeyKey == KeyM
    ensures HasFlag(Defaults().hotkeyModifiers, Control) && HasFlag(Defaults().hotkeyModifiers, Shift)
    ensures !HasFlag(Defaults().hotkeyModifiers, Alt) && !HasFlag(Defaults().hotkeyModifiers, Win)
    ensures ValidModifiers(Defaults().hotkeyModifiers)
    ensures Defaults().autoConvertVsCode && !Defaults().autoConvertAny
    ensures Defaults().removeBackslashes && Defaults().decodeHtmlEntities
  {
  }

  /** A valid mask is exactly a non-empty combination of Control, Alt and
      Shift without Win. */
  lemma ValidModifiersAreFlags(mask: int)
    requires ValidModifiers(mask)
    ensures !HasFlag(mask, Win)
    ensures HasFlag(mask, Control) || HasFlag(mask, Alt) || HasFlag(mask, Shift)
    ensures mask == (if HasFlag(mask, Control) then Control else 0)
                    + (if HasFlag(mask, Alt) then Alt else 0)
                    + (if HasFlag(mask, Shift) then Shift else 0)
  {
  }
}

=== FILE: strip.dfy ===
/** Removal of editor-internal links and images (`RemoveVsCodeLinks`).

    Each of the three rewrites is a `Regex.Replace` with `IgnoreCase` and
    `Singleline`. A rewrite is modelled as a left-to-right scanner over the
    ORIGINAL string: at each offset it asks the rule for a match; a match
    covering `s[p..end]` is replaced by the slice `s[keepLo..keepHi]` (empty for
    the two deleting rules, the captured anchor text for the third) and the scan
    resumes at `end`; otherwise the character is copied and the scan moves on.

    The per-offset matchers reproduce the order in which the backtracking
    engine tries alternatives, so the match they return is the one .NET picks:
      - a greedy `[^>]*` in front of `\bsrc` / `\bhref` is tried longest first,
        so attribute positions are tried from the first `>` DOWNWARD;
      - the lazy `.*?` of the Markdown image is tried shortest first, so `]`
        positions are tried UPWARD;
      - the lazy `(.*?)</a>` ends at the first `</a>`.
 */
module Strip {
  import opened Text
  import opened Subsequences

  /** The editor-internal URI scheme every rule requires, matched up to case. */
  const Scheme := "vscode-file://"

  const Quotes: set<char> := {'"', '\''}

  datatype Rule =
    | ImageTag      // <img\b[^>]*\bsrc\s*=\s*["']vscode-file://[^"']*["'][^>]*\/?>  ->  ""
    | AnchorTag     // <a\s+[^>]*\bhref\s*=\s*["']vscode-file://[^"']*["'][^>]*>(.*?)</a>  ->  $1
    | MarkdownImage // !\[.*?\]\(\s*vscode-file://[^)]*\)  ->  ""

  /** A match ending before `end`, replaced by `s[keepLo..keepHi]`; `scheme`
      is where its `vscode-file://` token sits. */
  datatype Hit = Hit(end: nat, keepLo: nat, keepHi: nat, scheme: nat)

  /** A match that starts at `p`: it lies inside `s`, contains the scheme
      token, and keeps a slice of itself that does not contain that token. */
  predicate ValidHit(s: string, p: nat, h: Hit) {
    && p <= h.scheme && h.scheme + |Scheme| <= h.end <= |s|
    && IsAtIgnoringCase(s, Scheme, h.scheme)
    && p <= h.keepLo <= h.keepHi <= h.end
    && (h.keepHi <= h.scheme || h.scheme + |Scheme| <= h.keepLo)
  }

  /** The kept text of an anchor match is the lazy `(.*?)`: the `</a>` right
      after it ends the match, and no `</a>` starts inside it. */
  predicate LazyBody(s: string, h: Hit) {
    && h.keepHi + 4 == h.end
    && IsAtIgnoringCase(s, "</a>", h.keepHi)
    && forall k :: h.keepLo <= k < h.keepHi ==> !IsAtIgnoringCase(s, "</a>", k)
  }

  /** `s[i..j]` is `\s*=\s*`: white space around exactly one `=`. */
  predicate SpacedEquals(s: string, i: nat, j: nat)
    requires i <= j <= |s|
  {
    exists a :: i <= a < j && s[a] == '=' && forall k :: i <= k < j && k != a ==> IsSpace(s[k])
  }

  /** `\s*=\s*["']vscode-file://[^"']*["']` at `i`: the offset just past the
      closing quote, and the offset of the scheme token. */
  function QuotedSchemeValue(s: string, i: nat): (r: Option<(nat, nat)>)
    requires i <= |s|
    ensures r.Some? ==> i < r.value.1 && r.value.1 + |Scheme| < r.value.0 <= |s|
    ensures r.Some? ==> IsAtIgnoringCase(s, Scheme, r.value.1) && s[r.value.0 - 1] in Quotes
    ensures r.Some? ==> SpacedEquals(s, i, r.value.1 - 1) && s[r.value.1 - 1] in Quotes
    ensures r.Some? ==> forall k :: r.value.1 + |Scheme| <= k < r.value.0 - 1 ==> s[k] !in Quotes
  {
    var a := SkipSpaces(s, i);
    if a < |s| && s[a] == '=' then
      var b := SkipSpaces(s, a + 1);
      if b < |s| && s[b] in Quotes && IsAtIgnoringCase(s, Scheme, b + 1) then
        var e := FindAny(s, b + 1 + |Scheme|, Quotes);
        if e < |s| then
          assert SpacedEquals(s, i, b) by {
            assert forall k :: i <= k < b && k != a ==> IsSpace(s[k]);
          }
          Some((e + 1, b + 1))
        else None
      else None
    else None
  }

  /** `\b` + `name` + the quoted scheme value + `[^>]*` + `>` at `q`: the offset
      just past the closing `>` of the tag, and the scheme offset. */
  function TagAttributeAt(s: string, q: nat, name: string): (r: Option<(nat, nat)>)
    requires q <= |s|
    ensures r.Some? ==> q < r.value.1 && r.value.1 + |Scheme| < r.value.0 <= |s|
    ensures r.Some? ==> IsAtIgnoringCase(s, Scheme, r.value.1) && s[r.value.0 - 1] == '>'
    ensures r.Some? ==> 0 < q && !IsWordChar(s[q - 1]) && IsAtIgnoringCase(s, name, q)
  {
    if 0 < q && !IsWordChar(s[q - 1]) && IsAtIgnoringCase(s, name, q) then
      match QuotedSchemeValue(s, q + |name|)
      case Some((after, at)) =>
        var m := FindAny(s, after, {'>'});
        if m < |s| then Some((m + 1, at)) else None
      case None => None
    else None
  }

  /** The `src` attribute of an image tag, tried at `q`. */
  function SourceAt(s: string, p: nat, q: nat): (r: Option<Hit>)
    requires p <= q <= |s|
    ensures r.Some? ==> ValidHit(s, p, r.value) && r.value.keepLo == r.value.keepHi
  {
    match TagAttributeAt(s, q, "src")
    case Some((end, at)) => Some(Hit(end, p, p, at))
    case None => None
  }

  /** The `href` attribute of an anchor, tried at `q`, followed by the lazy
      body up to the first `</a>`. */
  function HrefAt(s: string, p: nat, q: nat): (r: Option<Hit>)
    requires p <= q <= |s|
    ensures r.Some? ==> ValidHit(s, p, r.value) && LazyBody(s, r.value)
  {
    match TagAttributeAt(s, q, "href")
    case Some((open, at)) => BodyAfter(s, open, at)
    case None => None
  }

  /** `(.*?)</a>` after an opening tag that ends before `open`: the body
      runs up to the first `</a>` in any letter case, or there is no match. */
  function BodyAfter(s: string, open: nat, at: nat): (r: Option<Hit>)
    requires open <= |s|
    ensures r.Some? ==> r.value.keepLo == open && r.value.scheme == at && LazyBody(s, r.value)
    ensures r.None? <==> forall k :: open <= k <= |s| ==> !IsAtIgnoringCase(s, "</a>", k)
  {
    match IndexOfIgnoringCaseFrom(s, "</a>", open)
    case Some(close) => Some(Hit(close + 4, open, close, at))
    case None => None
  }

  /** The largest position in `lo..q` at which `f` finds a match: the
      order in which a backtracking engine gives back what a greedy loop took. */
  function LastFound(f: nat -> Option<Hit>, lo: nat, q: nat): (r: Option<nat>)
    requires lo <= q
    ensures r.Some? ==> lo <= r.value <= q && f(r.value).Some?
    decreases q
  {
    if f(q).Some? then Some(q)
    else if q == lo then None
    else LastFound(f, lo, q - 1)
  }

  /** The search fails exactly when no position in `lo..q` matches. */
  lemma {:induction false} LastFoundNone(f: nat -> Option<Hit>, lo: nat, q: nat)
    requires lo <= q
    ensures LastFound(f, lo, q).None? <==> forall k :: lo <= k <= q ==> f(k).None?
    decreases q
  {
    if f(q).None? && q > lo {
      LastFoundNone(f, lo, q - 1);
    }
  }

  /** The search returns exactly the largest position that matches. */
  lemma {:induction false} LastFoundIs(f: nat -> Option<Hit>, lo: nat, q: nat, k: nat)
    requires lo <= k <= q && f(k).Some?
    requires forall k' :: k < k' <= q ==> f(k').None?
    ensures LastFound(f, lo, q) == Some(k)
    decreases q
  {
    if q > k {
      LastFoundIs(f, lo, q - 1, k);
    }
  }

  /** The smallest position in `k..hi` at which `f` finds a match: the order
      in which a backtracking engine extends a lazy loop. */
  function FirstFound(f: nat -> Option<Hit>, k: nat, hi: nat): (r: Option<nat>)
    requires k <= hi
    ensures r.Some? ==> k <= r.value <= hi && f(r.value).Some?
    decreases hi - k
  {
    if f(k).Some? then Some(k)
    else if k == hi then None
    else FirstFound(f, k + 1, hi)
  }

  /** The search fails exactly when no position in `k..hi` matches. */
  lemma {:induction false} FirstFoundNone(f: nat -> Option<Hit>, k: nat, hi: nat)
    requires k <= hi
    ensures FirstFound(f, k, hi).None? <==> forall j :: k <= j <= hi ==> f(j).None?
    decreases hi - k
  {
    if f(k).None? && k < hi {
      FirstFoundNone(f, k + 1, hi);
    }
  }

  /** The search returns exactly the smallest position that matches. */
  lemma {:induction false} FirstFoundIs(f: nat -> Option<Hit>, k: nat, hi: nat, j: nat)
    requires k <= j <= hi && f(j).Some?
    requires forall j' :: k <= j' < j ==> f(j').None?
    ensures FirstFound(f, k, hi) == Some(j)
    decreases j - k
  {
    if k < j {
      FirstFoundIs(f, k + 1, hi, j);
    }
  }

  /** `SourceAt` as a function of the attribute position. */
  function Sources(s: string, p: nat): nat -> Option<Hit> {
    (q: nat) => if p <= q <= |s| then SourceAt(s, p, q) else None
  }

  /** `HrefAt` as a function of the attribute position. */
  function Hrefs(s: string, p: nat): nat -> Option<Hit> {
    (q: nat) => if p <= q <= |s| then HrefAt(s, p, q) else None
  }

  /** Where a match of `rule` can start: `<img` then a non-word character
      (`<img\b`), `<a` then white space (`<a\s+`), or `![`. */
  predicate OpensAt(rule: Rule, s: string, p: nat) {
    match rule
    case ImageTag => IsAtIgnoringCase(s, "<img", p) && p + 4 < |s| && !IsWordChar(s[p + 4])
    case AnchorTag => IsAtIgnoringCase(s, "<a", p) && p + 2 < |s| && IsSpace(s[p + 2])
    case MarkdownImage => p + 1 < |s| && s[p] == '!' && s[p + 1] == '['
  }

  /** `<img\b[^>]*\bsrc...` at `p`. */
  function ImageTagAt(s: string, p: nat): (r: Option<Hit>)
    requires p <= |s|
    ensures r.Some? ==> ValidHit(s, p, r.value) && r.value.keepLo == r.value.keepHi
    ensures r.Some? ==> OpensAt(ImageTag, s, p)
  {
    if IsAtIgnoringCase(s, "<img", p) && (p + 4 == |s| || !IsWordChar(s[p + 4])) then
      // The greedy `[^>]*` gives back from the first `>` downward.
      match LastFound(Sources(s, p), p + 4, FindAny(s, p + 4, {'>'}))
      case Some(q) => SourceAt(s, p, q)
      case None => None
    else None
  }

  /** `<a\s+[^>]*\bhref...>(.*?)</a>` at `p`. */
  function AnchorTagAt(s: string, p: nat): (r: Option<Hit>)
    requires p <= |s|
    ensures r.Some? ==> ValidHit(s, p, r.value) && LazyBody(s, r.value)
    ensures r.Some? ==> OpensAt(AnchorTag, s, p)
  {
    if IsAtIgnoringCase(s, "<a", p) && p + 2 < |s| && IsSpace(s[p + 2]) then
      match LastFound(Hrefs(s, p), p + 3, FindAny(s, p + 3, {'>'}))
      case Some(q) => HrefAt(s, p, q)
      case None => None
    else None
  }

  /** The tail `\]\(\s*vscode-file://[^)]*\)` of a Markdown image, tried
      with its `]` at `k`. */
  function ImageTargetAt(s: string, p: nat, k: nat): (r: Option<Hit>)
    requires p <= k <= |s|
    ensures r.Some? ==> ValidHit(s, p, r.value) && r.value.keepLo == r.value.keepHi
    ensures r.Some? ==> k + 2 <= r.value.scheme && s[k] == ']' && s[k + 1] == '('
    ensures r.Some? ==> forall j :: k + 2 <= j < r.value.scheme ==> IsSpace(s[j])
    ensures r.Some? ==> s[r.value.end - 1] == ')'
    ensures r.Some? ==> forall j :: r.value.scheme + |Scheme| <= j < r.value.end - 1 ==> s[j] != ')'
  {
    if k + 1 < |s| && s[k] == ']' && s[k + 1] == '(' then
      var a := SkipSpaces(s, k + 2);
      if IsAtIgnoringCase(s, Scheme, a) then
        var e := FindAny(s, a + |Scheme|, {')'});
        if e < |s| then Some(Hit(e + 1, p, p, a)) else None
      else None
    else None
  }

  /** `ImageTargetAt` as a function of the `]` position. */
  function ImageTargets(s: string, p: nat): nat -> Option<Hit> {
    (k: nat) => if p <= k <= |s| then ImageTargetAt(s, p, k) else None
  }

  /** The lazy `.*?` of a Markdown image: `]` positions from `k` upward are
      tried in that order, so the match found is the one whose `]` is the
      SMALLEST position that matches. */
  function FirstImageTarget(s: string, p: nat, k: nat): (r: Option<Hit>)
    requires p <= k <= |s|
    ensures r.Some? ==> ValidHit(s, p, r.value) && r.value.keepLo == r.value.keepHi
  {
    match FirstFound(ImageTargets(s, p), k, |s|)
    case Some(j) => ImageTargetAt(s, p, j)
    case None => None
  }

  /** The search fails exactly when no `]` position from `k` on matches. */
  lemma FirstImageTargetNone(s: string, p: nat, k: nat)
    requires p <= k <= |s|
    ensures FirstImageTarget(s, p, k).None? <==> forall j :: k <= j <= |s| ==> ImageTargetAt(s, p, j).None?
  {
    var f := ImageTargets(s, p);
    FirstFoundNone(f, k, |s|);
    assert forall j :: k <= j <= |s| ==> f(j) == ImageTargetAt(s, p, j);
  }

  /** When `j` is the smallest `]` position from `k` on that matches, the
      search returns the match at `j`. */
  lemma FirstImageTargetIs(s: string, p: nat, k: nat, j: nat)
    requires p <= k <= j <= |s|
    requires ImageTargetAt(s, p, j).Some?
    requires forall j' :: k <= j' < j ==> ImageTargetAt(s, p, j').None?
    ensures FirstImageTarget(s, p, k) == ImageTargetAt(s, p, j)
  {
    var f := ImageTargets(s, p);
    assert f(j) == ImageTargetAt(s, p, j);
    forall j' | k <= j' < j ensures f(j').None? {
      assert f(j') == ImageTargetAt(s, p, j');
    }
    FirstFoundIs(f, k, |s|, j);
  }

  /** `!\[.*?\]\(\s*vscode-file://[^)]*\)` at `p`. */
  function MarkdownImageAt(s: string, p: nat): (r: Option<Hit>)
    requires p <= |s|
    ensures r.Some? ==> ValidHit(s, p, r.value) && r.value.keepLo == r.value.keepHi
    ensures r.Some? ==> OpensAt(MarkdownImage, s, p)
  {
    if p + 1 < |s| && s[p] == '!' && s[p + 1] == '[' then FirstImageTarget(s, p, p + 2)
    else None
  }

  function MatchAt(rule: Rule, s: string, p: nat): (r: Option<Hit>)
    requires p <= |s|
    ensures r.Some? ==> ValidHit(s, p, r.value)
    ensures r.Some? && !rule.AnchorTag? ==> r.value.keepLo == r.value.keepHi
    ensures r.Some? ==> OpensAt(rule, s, p)
  {
    match rule
    case ImageTag => ImageTagAt(s, p)
    case AnchorTag => AnchorTagAt(s, p)
    case MarkdownImage => MarkdownImageAt(s, p)
  }

  /** No scheme token starts at or after `p`. */
  predicate SchemeFreeFrom(s: string, p: nat) {
    forall k :: p <= k <= |s| ==> !IsAtIgnoringCase(s, Scheme, k)
  }

  /** Every match `f` reports lies inside `s` and contains the scheme. */
  predicate Sound(s: string, f: nat -> Option<Hit>) {
    forall q :: 0 <= q <= |s| && f(q).Some? ==> ValidHit(s, q, f(q).value)
  }

  /** `Regex.Replace` over `s[p..]` with `f` the matcher tried at each offset:
      leftmost, non-overlapping matches of the original string, each replaced
      by its kept slice. A scan that replaces nothing returns the input; one
      that replaces something returns a strictly shorter string. */
  function Scan(s: string, f: nat -> Option<Hit>, p: nat): (r: string)
    requires p <= |s| && Sound(s, f)
    ensures |r| <= |s| - p
    ensures r != s[p..] ==> |r| < |s| - p
    ensures SchemeFreeFrom(s, p) ==> r == s[p..]
    decreases |s| - p
  {
    if p == |s| then []
    else
      match f(p)
      case Some(h) => s[h.keepLo..h.keepHi] + Scan(s, f, h.end)
      case None =>
        assert s[p..] == [s[p]] + s[p + 1..];
        [s[p]] + Scan(s, f, p + 1)
  }

  /** The matcher of one rule, as a function of the offset. */
  function Matches(rule: Rule, s: string): nat -> Option<Hit> {
    (q: nat) => if q <= |s| then MatchAt(rule, s, q) else None
  }

  lemma MatchesSound(rule: Rule, s: string)
    ensures Sound(s, Matches(rule, s))
  {
    forall q | 0 <= q <= |s| && Matches(rule, s)(q).Some?
      ensures ValidHit(s, q, Matches(rule, s)(q).value)
    {
      assert Matches(rule, s)(q) == MatchAt(rule, s, q);
    }
  }

  /** One rule's `Regex.Replace` over `s[p..]`. */
  function ReplaceFrom(rule: Rule, s: string, p: nat): (r: string)
    requires p <= |s|
    ensures |r| <= |s| - p
    ensures r != s[p..] ==> |r| < |s| - p
    ensures SchemeFreeFrom(s, p) ==> r == s[p..]
  {
    MatchesSound(rule, s);
    Scan(s, Matches(rule, s), p)
  }

  function Replace(rule: Rule, s: string): string {
    ReplaceFrom(rule, s, 0)
  }

  /** `RemoveVsCodeLinks`: the image, anchor and Markdown-image rewrites, in
      that order, each on the previous one's output. */
  function RemoveVsCodeLinks(html: string): (r: string)
    ensures |r| <= |html|
  {
    if |html| == 0 then html
    else Replace(MarkdownImage, Replace(AnchorTag, Replace(ImageTag, html)))
  }
}

=== FILE: strip_keeps.dfy ===
/** What the three rewrites of `RemoveVsCodeLinks` leave alone: text that
    only resembles an editor link, because the tag is not `<img` or `<a`
    as a whole word, the attribute name is not a whole word, or something
    other than white space precedes the scheme of a Markdown target. And an
    editor anchor inside ordinary HTML, which is unwrapped while the HTML
    around it stays. */
module StripKeeps {
  import opened Text
  import opened Strip
  import opened StripProperties
  import opened StripRules

  /** A rule whose opener occurs nowhere in `s` leaves `s` alone. */
  lemma NoOpenerUnchanged(rule: Rule, s: string)
    requires forall k :: 0 <= k < |s| ==> !OpensAt(rule, s, k)
    ensures Replace(rule, s) == s
  {
    forall k | 0 <= k < |s| ensures MatchAt(rule, s, k).None? {
      assert !OpensAt(rule, s, k);
    }
    ReplaceWithoutMatches(rule, s);
  }

  /** A rule whose opening character occurs only at the offsets `ks`, none
      of which opens a match, leaves `s` alone. */
  lemma OpenersOnlyAt(rule: Rule, s: string, ks: set<nat>)
    requires forall k :: 0 <= k < |s| && s[k] == Opener(rule) ==> k in ks
    requires forall k :: k in ks && k < |s| ==> !OpensAt(rule, s, k)
    ensures Replace(rule, s) == s
  {
    forall k | 0 <= k < |s| ensures !OpensAt(rule, s, k) {
      if s[k] != Opener(rule) {
        NotOpenedWithout(rule, s, k);
      }
    }
    NoOpenerUnchanged(rule, s);
  }

  /** Without `!`, the Markdown-image rule finds nothing. */
  lemma NoTagWithoutBang(s: string)
    requires forall k :: 0 <= k < |s| ==> s[k] != '!'
    ensures Replace(MarkdownImage, s) == s
  {
    OpenersOnlyAt(MarkdownImage, s, {});
  }

  // ----- <area href="vscode-file://x">t</a> -----

  const Area := "<area href=\"vscode-file://x\">t</a>"

  lemma AreaChars(s: string)
    requires s == Area
    ensures |s| == 34 && s[1] == 'a' && s[2] == 'r' && s[31] == '/'
    ensures forall k :: 0 <= k < |s| && s[k] == '<' ==> k == 0 || k == 30
    ensures forall k :: 0 <= k < |s| ==> s[k] != '!'
  {
  }

  /** `<a\s+` needs white space right after `<a`, and `<area` is no `<img`:
      all three rewrites leave an `<area>` element that links into the
      editor alone. */
  lemma AreaKept(s: string)
    requires s == Area
    ensures RemoveVsCodeLinks(s) == s
  {
    AreaChars(s);
    AreaLikeKept(s);
  }

  /** Any text laid out like `Area` where it matters is left alone. */
  lemma AreaLikeKept(s: string)
    requires |s| == 34 && s[1] == 'a' && s[2] == 'r' && s[31] == '/'
    requires forall k :: 0 <= k < |s| && s[k] == '<' ==> k == 0 || k == 30
    requires forall k :: 0 <= k < |s| ==> s[k] != '!'
    ensures RemoveVsCodeLinks(s) == s
  {
    NotAtBy(s, "<img", 0, 1);
    NotAtBy(s, "<img", 30, 1);
    OpenersOnlyAt(ImageTag, s, {0, 30});
    NotAtBy(s, "<a", 30, 1);
    OpenersOnlyAt(AnchorTag, s, {0, 30});
    NoTagWithoutBang(s);
  }

  // ----- <imgx src="vscode-file://x"> -----

  const ImgPrefix := "<imgx src=\"vscode-file://x\">"

  lemma ImgPrefixChars(s: string)
    requires s == ImgPrefix
    ensures |s| == 28 && s[1] == 'i' && s[4] == 'x'
    ensures forall k :: 0 <= k < |s| && s[k] == '<' ==> k == 0
    ensures forall k :: 0 <= k < |s| ==> s[k] != '!'
  {
  }

  /** `<img\b` needs a non-word character after `<img`: an `<imgx>` element
      is left alone by all three rewrites. */
  lemma ImgPrefixKept(s: string)
    requires s == ImgPrefix
    ensures RemoveVsCodeLinks(s) == s
  {
    ImgPrefixChars(s);
    assert IsWordChar(s[4]);
    OpenersOnlyAt(ImageTag, s, {0});
    NotAtBy(s, "<a", 0, 1);
    OpenersOnlyAt(AnchorTag, s, {0});
    NoTagWithoutBang(s);
  }

  // ----- <img xsrc="vscode-file://x"> -----

  const Xsrc := "<img xsrc=\"vscode-file://x\">"

  lemma XsrcChars(s: string)
    requires s == Xsrc
    ensures |s| == 28 && s[1] == 'i' && s[5] == 'x' && s[13] == 'c'
    ensures forall k :: 0 <= k < |s| && (s[k] == 's' || s[k] == 'S') ==> k == 6 || k == 12
    ensures forall k :: 0 <= k < |s| && s[k] == '<' ==> k == 0
    ensures forall k :: 0 <= k < |s| ==> s[k] != '!'
  {
  }

  /** No attribute position of `<img xsrc="vscode-file://x">` holds `\bsrc`:
      the one `src` follows the word character `x`. */
  lemma NoSourceInXsrc(s: string, q: nat)
    requires s == Xsrc && q <= |s|
    ensures SourceAt(s, 0, q).None?
  {
    XsrcChars(s);
    if q == 6 {
      assert IsWordChar(s[5]);
    } else if q == 12 {
      NotAtBy(s, "src", q, 1);
    } else if q < |s| {
      NotAtBy(s, "src", q, 0);
    }
  }

  /** The image rule finds no match at the `<img` of `<img xsrc=…>`. */
  lemma XsrcNoImageMatch(s: string)
    requires s == Xsrc
    ensures ImageTagAt(s, 0).None?
  {
    var c := FindAny(s, 4, {'>'});
    forall q | 4 <= q <= c ensures Sources(s, 0)(q).None? {
      NoSourceInXsrc(s, q);
    }
    LastFoundNone(Sources(s, 0), 4, c);
  }

  /** `\bsrc` needs a non-word character before `src`: an `xsrc` attribute
      is no source, so all three rewrites leave the tag alone. */
  lemma XsrcKept(s: string)
    requires s == Xsrc
    ensures RemoveVsCodeLinks(s) == s
  {
    XsrcChars(s);
    XsrcNoImageMatch(s);
    XsrcLikeKept(s);
  }

  /** Any text laid out like `Xsrc` where it matters, whose `<img` opens no
      match, is left alone. */
  lemma XsrcLikeKept(s: string)
    requires |s| == 28 && s[1] == 'i' && ImageTagAt(s, 0).None?
    requires forall k :: 0 <= k < |s| && s[k] == '<' ==> k == 0
    requires forall k :: 0 <= k < |s| ==> s[k] != '!'
    ensures RemoveVsCodeLinks(s) == s
  {
    forall k | 0 <= k < |s| ensures MatchAt(ImageTag, s, k).None? {
      if k != 0 {
        NotOpenedWithout(ImageTag, s, k);
      }
    }
    ReplaceWithoutMatches(ImageTag, s);
    NotAtBy(s, "<a", 0, 1);
    OpenersOnlyAt(AnchorTag, s, {0});
    NoTagWithoutBang(s);
  }

  // ----- ![a](see vscode-file://x) -----

  const TextBeforeScheme := "![a](see vscode-file://x)"

  lemma TextBeforeSchemeChars(s: string)
    requires s == TextBeforeScheme
    ensures |s| == 25 && s[4] == '(' && s[5] == 's' && !IsSpace(s[5])
    ensures forall k :: 0 <= k < |s| && s[k] == ']' ==> k == 3
    ensures forall k :: 0 <= k < |s| && s[k] == '!' ==> k == 0
    ensures forall k :: 0 <= k < |s| ==> s[k] != '<'
  {
  }

  /** Only white space may come between `](` and the scheme: no `]`
      position of `![a](see vscode-file://x)` starts a target. */
  lemma NoTargetBeforeText(s: string, j: nat)
    requires s == TextBeforeScheme && j <= |s|
    ensures ImageTargetAt(s, 0, j).None?
  {
    TextBeforeSchemeChars(s);
    if j == 3 {
      assert SkipSpaces(s, 5) == 5;
      NotAtBy(s, Scheme, 5, 0);
    }
  }

  /** A Markdown image whose target has text before the scheme is left
      alone by all three rewrites. */
  lemma TextBeforeSchemeKept(s: string)
    requires s == TextBeforeScheme
    ensures RemoveVsCodeLinks(s) == s
  {
    TextBeforeSchemeChars(s);
    TextBeforeSchemeNoTarget(s);
    BangOnlyAtStartKept(s);
  }

  /** The Markdown-image rule finds no match at the `!` of
      `![a](see vscode-file://x)`. */
  lemma TextBeforeSchemeNoTarget(s: string)
    requires s == TextBeforeScheme
    ensures |s| == 25 && MarkdownImageAt(s, 0).None?
  {
    forall j | 2 <= j <= |s| ensures ImageTargetAt(s, 0, j).None? {
      NoTargetBeforeText(s, j);
    }
    FirstImageTargetNone(s, 0, 2);
  }

  /** A text without `<` whose only `!`, at its start, opens no Markdown
      image is left alone. */
  lemma BangOnlyAtStartKept(s: string)
    requires 0 < |s| && MarkdownImageAt(s, 0).None?
    requires forall k :: 0 <= k < |s| && s[k] == '!' ==> k == 0
    requires forall k :: 0 <= k < |s| ==> s[k] != '<'
    ensures RemoveVsCodeLinks(s) == s
  {
    NoTagWithoutAngle(ImageTag, s);
    NoTagWithoutAngle(AnchorTag, s);
    forall k | 0 <= k < |s| ensures MatchAt(MarkdownImage, s, k).None? {
      if k != 0 {
        NotOpenedWithout(MarkdownImage, s, k);
      }
    }
    ReplaceWithoutMatches(MarkdownImage, s);
  }

  // ----- <p><a href="vscode-file://x">t</a></p> -----

  /** `<p><a href="vscode-file://x">t</a></p>`: no `<` in it starts `<img`. */
  lemma ParagraphNoImage(s: string)
    requires s == "<p>" + AnchorElement("x", "t") + "</p>"
    ensures Replace(ImageTag, s) == s
  {
    var x, y := "<p>", "</p>";
    Framed(x, AnchorElement("x", "t"), y);
    NoImgInAnchorAt(s, 3, "x", "t");
    forall k | 0 <= k < |s| ensures !IsAtIgnoringCase(s, "<img", k) {
      if k < 3 {
        NotAtBy(s, "<img", k, if k == 0 then 1 else 0);
      } else if k >= 34 {
        assert s[k] == y[k - 34] && (k == 34 ==> s[35] == y[1]);
        NotAtBy(s, "<img", k, if k == 34 then 1 else 0);
      }
    }
    NoImgUnchanged(s);
  }

  /** An editor anchor inside a paragraph is unwrapped and the paragraph
      tags stay: `<p><a href="vscode-file://x">t</a></p>` becomes
      `<p>t</p>`. */
  lemma AnchorInParagraph(s: string)
    requires s == "<p>" + AnchorElement("x", "t") + "</p>"
    ensures RemoveVsCodeLinks(s) == "<p>t</p>"
  {
    ParagraphNoImage(s);
    ParagraphUnwrapped(s);
    ShortUnchanged(MarkdownImage, "<p>t</p>");
  }

  /** The `<` of `<p>` opens no anchor, so the anchor rewrite unwraps the
      anchor after it. */
  lemma ParagraphUnwrapped(s: string)
    requires s == "<p>" + AnchorElement("x", "t") + "</p>"
    ensures Replace(AnchorTag, s) == "<p>t</p>"
  {
    Framed("<p>", AnchorElement("x", "t"), "</p>");
    forall k | 0 <= k < 3 ensures !OpensAt(AnchorTag, s, k) {
      if k == 0 {
        NotAtBy(s, "<a", k, 1);
      } else {
        NotOpenedWithout(AnchorTag, s, k);
      }
    }
    AnchorInContext("<p>", "x", "t", "</p>");
  }
}

=== FILE: strip_properties.dfy ===
/** Properties of `RemoveVsCodeLinks` over all inputs: it only deletes, and
    it leaves text without the editor scheme alone; with the scanning facts
    the rule-by-rule lemmas build on. */
module StripProperties {
  import opened Text
  import opened Subsequences
  import opened Strip

  /** A match's kept slice followed by any subsequence of the rest of the
      text is a subsequence of the text from the match on. */
  lemma KeptSliceThenRest(s: string, p: nat, h: Hit, rest: string)
    requires ValidHit(s, p, h) && IsSubseq(rest, s[h.end..])
    ensures IsSubseq(s[h.keepLo..h.keepHi] + rest, s[p..])
  {
    InnerSliceIsSubseq(s, p, h.keepLo, h.keepHi, h.end);
    SubseqAppend(s[h.keepLo..h.keepHi], s[p..h.end], rest, s[h.end..]);
    assert s[p..h.end] + s[h.end..] == s[p..];
  }

  /** A copied character followed by any subsequence of the rest. */
  lemma CopiedThenRest(s: string, p: nat, rest: string)
    requires p < |s| && IsSubseq(rest, s[p + 1..])
    ensures IsSubseq([s[p]] + rest, s[p..])
  {
    SubseqRefl([s[p]]);
    SubseqAppend([s[p]], [s[p]], rest, s[p + 1..]);
    assert [s[p]] + s[p + 1..] == s[p..];
  }

  /** A scan keeps a subsequence of the scanned suffix: each match is
      replaced by a slice of itself, everything else is copied. */
  lemma {:induction false} ScanIsSubseq(s: string, f: nat -> Option<Hit>, p: nat)
    requires p <= |s| && Sound(s, f)
    ensures IsSubseq(Scan(s, f, p), s[p..])
    decreases |s| - p
  {
    if p == |s| {
      assert IsSubseq<char>([], s[p..]);
    } else {
      match f(p)
      case Some(h) =>
        ScanIsSubseq(s, f, h.end);
        KeptSliceThenRest(s, p, h, Scan(s, f, h.end));
      case None =>
        ScanIsSubseq(s, f, p + 1);
        CopiedThenRest(s, p, Scan(s, f, p + 1));
    }
  }

  lemma ReplaceIsSubseq(rule: Rule, s: string)
    ensures IsSubseq(Replace(rule, s), s)
  {
    MatchesSound(rule, s);
    ScanIsSubseq(s, Matches(rule, s), 0);
    assert s[0..] == s;
  }

  /** The three rewrites together only delete characters: the output is the
      input with some characters removed, none inserted or reordered. */
  lemma RemoveVsCodeLinksOnlyDeletes(html: string)
    ensures IsSubseq(RemoveVsCodeLinks(html), html)
  {
    if |html| == 0 {
      SubseqRefl(html);
    } else {
      var a := Replace(ImageTag, html);
      var b := Replace(AnchorTag, a);
      ReplaceIsSubseq(ImageTag, html);
      ReplaceIsSubseq(AnchorTag, a);
      ReplaceIsSubseq(MarkdownImage, b);
      SubseqTrans(b, a, html);
      SubseqTrans(Replace(MarkdownImage, b), b, html);
    }
  }

  /** Every rule needs the scheme token, so text without it, in any letter
      case, passes all three rewrites unchanged. */
  lemma RemoveVsCodeLinksWithoutScheme(html: string)
    requires !ContainsIgnoringCase(html, Scheme)
    ensures RemoveVsCodeLinks(html) == html
  {
    assert SchemeFreeFrom(html, 0);
    assert html[0..] == html;
  }

  /** The output is either the input itself or strictly shorter. */
  lemma RemoveVsCodeLinksShrinksOrKeeps(html: string)
    ensures RemoveVsCodeLinks(html) == html || |RemoveVsCodeLinks(html)| < |html|
  {
    if |html| > 0 {
      var a := Replace(ImageTag, html);
      var b := Replace(AnchorTag, a);
      assert html[0..] == html && a[0..] == a && b[0..] == b;
    }
  }

  lemma NotAtByFirst(s: string, pat: string, i: nat)
    requires |pat| > 0 && i < |s| && 'a' <= pat[0] <= 'z'
    requires s[i] != pat[0] && s[i] as int != pat[0] as int - 32
    ensures !IsAtIgnoringCase(s, pat, i)
  {
    assert Lower(s[i]) != Lower(pat[0]);
  }

  lemma NotAtBy(s: string, pat: string, i: nat, j: nat)
    requires j < |pat| && i + j < |s| && Lower(s[i + j]) != Lower(pat[j])
    ensures !IsAtIgnoringCase(s, pat, i)
  {
  }

  lemma {:induction false} ScanWithoutMatches(s: string, f: nat -> Option<Hit>, p: nat)
    requires p <= |s| && Sound(s, f)
    requires forall k :: p <= k < |s| ==> f(k).None?
    ensures Scan(s, f, p) == s[p..]
    decreases |s| - p
  {
    if p < |s| {
      ScanWithoutMatches(s, f, p + 1);
      assert s[p..] == [s[p]] + s[p + 1..];
    }
  }

  /** Where no match starts, a scan copies the character and moves on. */
  lemma ScanCopies(s: string, f: nat -> Option<Hit>, p: nat)
    requires p < |s| && Sound(s, f) && f(p).None?
    ensures Scan(s, f, p) == [s[p]] + Scan(s, f, p + 1)
  {
  }

  /** At a match, a scan writes the kept slice and resumes after the match. */
  lemma ScanAtHit(s: string, f: nat -> Option<Hit>, p: nat, h: Hit)
    requires p < |s| && Sound(s, f) && f(p) == Some(h)
    ensures Scan(s, f, p) == s[h.keepLo..h.keepHi] + Scan(s, f, h.end)
  {
  }

  /** A stretch in which no match starts is copied unchanged. */
  lemma {:induction false} ScanCopiedUntil(s: string, f: nat -> Option<Hit>, p: nat, q: nat)
    requires p <= q <= |s| && Sound(s, f)
    requires forall k :: p <= k < q ==> f(k).None?
    ensures Scan(s, f, p) == s[p..q] + Scan(s, f, q)
    decreases q - p
  {
    if p < q {
      ScanCopiedUntil(s, f, p + 1, q);
      ScanCopiedStep(s, f, p, q);
    } else {
      assert s[p..q] == [];
    }
  }

  /** One more copied character in front of a copied stretch. */
  lemma ScanCopiedStep(s: string, f: nat -> Option<Hit>, p: nat, q: nat)
    requires p < q <= |s| && Sound(s, f) && f(p).None?
    requires Scan(s, f, p + 1) == s[p + 1..q] + Scan(s, f, q)
    ensures Scan(s, f, p) == s[p..q] + Scan(s, f, q)
  {
    ScanCopies(s, f, p);
    ConsSlice(s, p, q, Scan(s, f, q));
  }

  lemma ConsSlice(s: string, p: nat, q: nat, rest: string)
    requires p < q <= |s|
    ensures [s[p]] + (s[p + 1..q] + rest) == s[p..q] + rest
  {
    assert s[p..q] == [s[p]] + s[p + 1..q];
  }

  /** A scan from `p` whose first match starts at `a`: what comes before it
      is copied, the match becomes its kept slice, and the scan resumes after
      it. */
  lemma ScanAroundHit(s: string, f: nat -> Option<Hit>, p: nat, a: nat, h: Hit)
    requires p <= a < |s| && Sound(s, f)
    requires forall k :: p <= k < a ==> f(k).None?
    requires f(a) == Some(h)
    ensures Scan(s, f, p) == s[p..a] + s[h.keepLo..h.keepHi] + Scan(s, f, h.end)
  {
    var before, kept, rest := s[p..a], s[h.keepLo..h.keepHi], Scan(s, f, h.end);
    calc {
      Scan(s, f, p);
    == { ScanCopiedUntil(s, f, p, a); }
      before + Scan(s, f, a);
    == { ScanAtHit(s, f, a, h); }
      before + (kept + rest);
    ==
      before + kept + rest;
    }
  }

  /** The same for a match that keeps nothing. */
  lemma ScanAroundDeletion(s: string, f: nat -> Option<Hit>, p: nat, a: nat, h: Hit)
    requires p <= a < |s| && Sound(s, f)
    requires forall k :: p <= k < a ==> f(k).None?
    requires f(a) == Some(h) && h.keepLo == h.keepHi
    ensures Scan(s, f, p) == s[p..a] + Scan(s, f, h.end)
  {
    ScanAroundHit(s, f, p, a, h);
    EmptyMiddle(s[p..a], s[h.keepLo..h.keepHi], Scan(s, f, h.end));
  }

  lemma EmptyMiddle(x: string, m: string, y: string)
    requires |m| == 0
    ensures x + m + y == x + y
  {
  }

  lemma ReplaceWithoutMatches(rule: Rule, s: string)
    requires forall k :: 0 <= k < |s| ==> MatchAt(rule, s, k).None?
    ensures Replace(rule, s) == s
  {
    var f := Matches(rule, s);
    MatchesSound(rule, s);
    forall k | 0 <= k < |s| ensures f(k).None? {
      assert f(k) == MatchAt(rule, s, k);
    }
    ScanWithoutMatches(s, f, 0);
  }

  lemma NoImageTagAt(s: string, k: nat)
    requires k < |s| && !IsAtIgnoringCase(s, "<img", k)
    ensures MatchAt(ImageTag, s, k).None?
  {
  }

  lemma ReplaceAtMatch(rule: Rule, s: string, p: nat, h: Hit)
    requires p < |s| && MatchAt(rule, s, p) == Some(h)
    ensures h.keepLo <= h.keepHi <= h.end <= |s|
    ensures ReplaceFrom(rule, s, p) == s[h.keepLo..h.keepHi] + ReplaceFrom(rule, s, h.end)
  {
    assert Matches(rule, s)(p) == Some(h);
  }

  lemma ReplaceAtEnd(rule: Rule, s: string)
    ensures ReplaceFrom(rule, s, |s|) == []
  {
  }

  lemma ShortUnchanged(rule: Rule, t: string)
    requires |t| < |Scheme|
    ensures Replace(rule, t) == t
  {
    assert SchemeFreeFrom(t, 0);
  }
}

=== FILE: strip_rules.dfy ===
/** What each rewrite of `RemoveVsCodeLinks` does to the tag or Markdown
    image it is written for, wherever the scan meets it in surrounding text,
    for every attribute value, link text and alt text; and worked examples
    built from them. */
module StripRules {
  import opened Text
  import opened Strip
  import opened StripProperties

  /** `FindAny` stops at the first character of `cs` from `i` on. */
  lemma FindAnyAt(s: string, i: nat, cs: set<char>, c: nat)
    requires i <= c < |s| && s[c] in cs
    requires forall k :: i <= k < c ==> s[k] !in cs
    ensures FindAny(s, i, cs) == c
  {
  }

  /** Where the only quote from `i` on closes a value and is followed by
      `>`, no quoted scheme value starts at `i`: the value would have to
      start right after that quote, at the `>`. */
  lemma NoQuotedValueBefore(s: string, i: nat, c: nat)
    requires i <= c && c + 1 < |s| && s[c] in Quotes && s[c + 1] == '>'
    requires forall j :: i <= j < c ==> s[j] !in Quotes
    ensures QuotedSchemeValue(s, i).None?
  {
    assert !IsSpace(s[c]);
    var a := SkipSpaces(s, i);
    assert a <= c;
    if a < |s| && s[a] == '=' {
      var b := SkipSpaces(s, a + 1);
      assert b <= c;
      if b < |s| && s[b] in Quotes {
        assert b == c;
        NotAtBy(s, Scheme, c + 1, 0);
      }
    }
  }

  /** No attribute `name` starts inside a quote-free stretch that ends with
      the closing `">` of the tag: the name holds neither a quote nor `>`. */
  lemma NoAttributeBeforeClose(s: string, k: nat, c: nat, name: string)
    requires 0 < |name| && forall j :: 0 <= j < |name| ==> name[j] !in Quotes && name[j] != '>'
    requires k <= c + 1 && c + 1 < |s| && s[c] == '"' && s[c + 1] == '>'
    requires forall j :: k <= j < c ==> s[j] !in Quotes
    ensures TagAttributeAt(s, k, name).None?
  {
    if k == c + 1 {
      assert name[0] != '>';
      NotAtBy(s, name, k, 0);
    } else if k + |name| <= c {
      NoQuotedValueBefore(s, k + |name|, c);
    } else {
      assert name[c - k] !in Quotes;
      NotAtBy(s, name, k, c - k);
    }
  }

  /** The first `>` from `i` on is no later than the tag's closing `>`. */
  lemma TagEndAtMost(s: string, i: nat, c: nat)
    requires i <= c + 1 < |s| && s[c + 1] == '>'
    ensures FindAny(s, i, {'>'}) <= c + 1
  {
  }

  /** `="vscode-file://...` with its closing quote at `c` matches at `i`. */
  lemma QuotedValueAt(s: string, i: nat, c: nat, at: nat)
    requires at == i + 2 && at + |Scheme| <= c < |s|
    requires s[i] == '=' && s[i + 1] in Quotes && s[c] in Quotes
    requires IsAtIgnoringCase(s, Scheme, at)
    requires forall k :: at + |Scheme| <= k < c ==> s[k] !in Quotes
    ensures QuotedSchemeValue(s, i) == Some((c + 1, at))
  {
    NoSpacesSkipped(s, i);
    NoSpacesSkipped(s, i + 1);
    FindAnyAt(s, i + 2 + |Scheme|, Quotes, c);
  }

  lemma NoSpacesSkipped(s: string, i: nat)
    requires i < |s| && (s[i] == '=' || s[i] in Quotes)
    ensures SkipSpaces(s, i) == i
  {
    assert !IsSpace(s[i]);
  }

  /** `\bname` at `q`, followed at `i` by a quoted scheme value that ends
      right before a `>`, matches and ends the tag at that `>`, before `end`. */
  lemma TagAttributeClosed(s: string, q: nat, name: string, i: nat, after: nat, at: nat, end: nat)
    requires 0 < q && i == q + |name| && i <= |s| && !IsWordChar(s[q - 1]) && IsAtIgnoringCase(s, name, q)
    requires QuotedSchemeValue(s, i) == Some((after, at))
    requires after < |s| && s[after] == '>' && end == after + 1
    ensures TagAttributeAt(s, q, name) == Some((end, at))
  {
    FindAnyAt(s, after, {'>'}, after);
    assert QuotedSchemeValue(s, q + |name|) == Some((after, at));
  }

  // ----- Scanning through surrounding text -----

  /** The character every match of a rule starts with. */
  function Opener(rule: Rule): char {
    if rule == MarkdownImage then '!' else '<'
  }

  /** Without its first character, a rule's opener is not there. */
  lemma NotOpenedWithout(rule: Rule, s: string, k: nat)
    requires k < |s| && s[k] != Opener(rule)
    ensures !OpensAt(rule, s, k)
  {
    if rule == ImageTag {
      NotAtBy(s, "<img", k, 0);
    } else if rule == AnchorTag {
      NotAtBy(s, "<a", k, 0);
    }
  }

  /** No match starts in a stretch where the rule's opener does not. */
  lemma NoMatchBetween(rule: Rule, s: string, p: nat, a: nat)
    requires p <= a <= |s|
    requires forall k :: p <= k < a ==> !OpensAt(rule, s, k)
    ensures forall k :: p <= k < a ==> MatchAt(rule, s, k).None?
  {
  }

  /** A scan from `p` whose first match starts at `a`: the text before it is
      copied, the match becomes its kept slice, and the scan resumes after
      it. */
  lemma ReplaceAroundMatch(rule: Rule, s: string, p: nat, a: nat, h: Hit)
    requires p <= a < |s| && MatchAt(rule, s, a) == Some(h)
    requires forall k :: p <= k < a ==> MatchAt(rule, s, k).None?
    ensures ReplaceFrom(rule, s, p) == s[p..a] + s[h.keepLo..h.keepHi] + ReplaceFrom(rule, s, h.end)
    ensures h.keepLo == h.keepHi ==> ReplaceFrom(rule, s, p) == s[p..a] + ReplaceFrom(rule, s, h.end)
  {
    var f := Matches(rule, s);
    MatchesSound(rule, s);
    forall k | p <= k < a ensures f(k).None? {
      assert f(k) == MatchAt(rule, s, k);
    }
    assert f(a) == Some(h);
    ScanAroundHit(s, f, p, a, h);
    if h.keepLo == h.keepHi {
      ScanAroundDeletion(s, f, p, a, h);
    }
  }

  /** The same, where no opener precedes the match. */
  lemma ReplaceAroundFirst(rule: Rule, s: string, p: nat, a: nat, h: Hit)
    requires p <= a < |s| && MatchAt(rule, s, a) == Some(h)
    requires forall k :: p <= k < a ==> !OpensAt(rule, s, k)
    ensures ReplaceFrom(rule, s, p) == s[p..a] + s[h.keepLo..h.keepHi] + ReplaceFrom(rule, s, h.end)
    ensures h.keepLo == h.keepHi ==> ReplaceFrom(rule, s, p) == s[p..a] + ReplaceFrom(rule, s, h.end)
  {
    NoMatchBetween(rule, s, p, a);
    ReplaceAroundMatch(rule, s, p, a, h);
  }

  /** A deleting match that is the first from `p`, ending before `e`. */
  lemma DeletedAt(rule: Rule, s: string, p: nat, a: nat, e: nat)
    requires p <= a < |s| && MatchAt(rule, s, a).Some?
    requires MatchAt(rule, s, a).value.end == e
    requires MatchAt(rule, s, a).value.keepLo == MatchAt(rule, s, a).value.keepHi
    requires forall k :: p <= k < a ==> !OpensAt(rule, s, k)
    ensures e <= |s| && ReplaceFrom(rule, s, p) == s[p..a] + ReplaceFrom(rule, s, e)
  {
    var h := MatchAt(rule, s, a).value;
    ReplaceAroundFirst(rule, s, p, a, h);
  }

  /** A match that is the first from `p`, ending before `e` and keeping
      `kept`. */
  lemma KeptAt(rule: Rule, s: string, p: nat, a: nat, e: nat, kept: string)
    requires p <= a < |s| && MatchAt(rule, s, a).Some?
    requires MatchAt(rule, s, a).value.end == e
    requires s[MatchAt(rule, s, a).value.keepLo..MatchAt(rule, s, a).value.keepHi] == kept
    requires forall k :: p <= k < a ==> !OpensAt(rule, s, k)
    ensures e <= |s| && ReplaceFrom(rule, s, p) == s[p..a] + kept + ReplaceFrom(rule, s, e)
  {
    var h := MatchAt(rule, s, a).value;
    ReplaceAroundFirst(rule, s, p, a, h);
  }

  /** Once no scheme token is left, the scan copies the rest. */
  lemma RestCopied(rule: Rule, s: string, q: nat)
    requires q <= |s| && !ContainsIgnoringCase(s[q..], Scheme)
    ensures ReplaceFrom(rule, s, q) == s[q..]
  {
    forall k | q <= k <= |s| ensures !IsAtIgnoringCase(s, Scheme, k) {
      if IsAtIgnoringCase(s, Scheme, k) {
        forall d | 0 <= d < |Scheme| ensures Lower(s[q..][k - q + d]) == Lower(Scheme[d]) {
          assert s[q..][k - q + d] == s[k + d];
        }
        assert IsAtIgnoringCase(s[q..], Scheme, k - q);
      }
    }
  }

  /** `e` sits in `x + e + y` right after `x` and right before `y`. */
  lemma Framed(x: string, e: string, y: string)
    ensures IsAt(x + e + y, e, |x|)
    ensures (x + e + y)[0..|x|] == x && (x + e + y)[|x| + |e|..] == y
    ensures forall k :: 0 <= k < |x| ==> (x + e + y)[k] == x[k]
  {
  }

  /** A rule whose first match in `s`, which is `x + e + y`, covers exactly
      `e` and keeps `kept` of it: the scan copies `x`, writes `kept` and
      copies `y`, which holds no scheme token. */
  lemma KeptInContext(rule: Rule, x: string, e: string, y: string, s: string, kept: string)
    requires s == x + e + y
    requires forall k :: 0 <= k < |x| ==> !OpensAt(rule, s, k)
    requires !ContainsIgnoringCase(y, Scheme)
    requires |x| < |s| && MatchAt(rule, s, |x|).Some?
    requires MatchAt(rule, s, |x|).value.end == |x| + |e|
    requires s[MatchAt(rule, s, |x|).value.keepLo..MatchAt(rule, s, |x|).value.keepHi] == kept
    ensures Replace(rule, s) == x + kept + y
  {
    var a, b := |x|, |x| + |e|;
    Framed(x, e, y);
    KeptAt(rule, s, 0, a, b, kept);
    RestCopied(rule, s, b);
    Reassembled(x, e, y, s, a, b, kept, ReplaceFrom(rule, s, 0), ReplaceFrom(rule, s, b));
  }

  /** Copying `x`, writing `kept` and copying `y` gives `x + kept + y`. */
  lemma Reassembled(x: string, e: string, y: string, s: string, a: nat, b: nat, kept: string, r: string, rest: string)
    requires s == x + e + y && a == |x| && b == |x| + |e|
    requires r == s[0..a] + kept + rest && rest == s[b..]
    ensures r == x + kept + y
  {
    Framed(x, e, y);
  }

  /** The same for a deleting rule. */
  lemma DeletedInContext(rule: Rule, x: string, e: string, y: string, s: string)
    requires s == x + e + y
    requires forall k :: 0 <= k < |x| ==> !OpensAt(rule, s, k)
    requires !ContainsIgnoringCase(y, Scheme)
    requires |x| < |s| && MatchAt(rule, s, |x|).Some?
    requires MatchAt(rule, s, |x|).value.end == |x| + |e|
    requires MatchAt(rule, s, |x|).value.keepLo == MatchAt(rule, s, |x|).value.keepHi
    ensures Replace(rule, s) == x + y
  {
    var h := MatchAt(rule, s, |x|).value;
    KeptInContext(rule, x, e, y, s, s[h.keepLo..h.keepHi]);
    EmptyMiddle(x, s[h.keepLo..h.keepHi], y);
  }

  // ----- <img src="vscode-file://V"> -----

  const ImgOpen := "<img src=\"vscode-file://"

  function ImgElement(v: string): string {
    ImgOpen + v + "\">"
  }

  /** The character layout of `ImgElement(v)` at offset `p` of `s`. */
  predicate ImgShape(s: string, p: nat, v: string) {
    && p + |v| + 26 <= |s|
    && (forall k :: 0 <= k < 24 ==> s[p + k] == ImgOpen[k])
    && (forall k :: 0 <= k < |v| ==> s[p + 24 + k] == v[k])
    && s[p + 24 + |v|] == '"' && s[p + 25 + |v|] == '>'
  }

  lemma ImgShapeOf(s: string, p: nat, v: string)
    requires IsAt(s, ImgElement(v), p)
    ensures |ImgOpen| == 24 && |ImgElement(v)| == |v| + 26
    ensures ImgShape(s, p, v)
  {
    var e := ImgElement(v);
    forall k | 0 <= k < 24 ensures s[p + k] == ImgOpen[k] {
      assert s[p + k] == e[k];
    }
    forall k | 0 <= k < |v| ensures s[p + 24 + k] == v[k] {
      assert s[p + 24 + k] == e[24 + k];
    }
    assert s[p + 24 + |v|] == e[24 + |v|];
    assert s[p + 25 + |v|] == e[25 + |v|];
  }

  /** `="vscode-file://` follows `src`. */
  lemma ImgScheme(s: string, p: nat, v: string)
    requires ImgShape(s, p, v)
    ensures s[p + 8] == '=' && s[p + 9] in Quotes && IsAtIgnoringCase(s, Scheme, p + 10)
  {
    assert s[p + 8] == ImgOpen[8] && s[p + 9] == ImgOpen[9];
    forall d | 0 <= d < |Scheme| ensures s[p + 10 + d] == Scheme[d] {
      assert s[p + (10 + d)] == ImgOpen[10 + d];
    }
  }

  /** The quoted value after `src` holds the scheme and ends at the
      closing quote. */
  lemma ImgValue(s: string, p: nat, v: string)
    requires ImgShape(s, p, v)
    requires forall k :: 0 <= k < |v| ==> v[k] !in Quotes
    ensures QuotedSchemeValue(s, p + 8) == Some((p + 25 + |v|, p + 10))
  {
    ImgScheme(s, p, v);
    forall k | p + 24 <= k < p + 24 + |v| ensures s[k] !in Quotes {
      assert s[p + 24 + (k - p - 24)] == v[k - p - 24];
    }
    QuotedValueAt(s, p + 8, p + 24 + |v|, p + 10);
  }

  /** `src` follows `<img ` as a whole word. */
  lemma ImgName(s: string, p: nat, v: string)
    requires ImgShape(s, p, v)
    ensures !IsWordChar(s[p + 4]) && IsAtIgnoringCase(s, "src", p + 5)
  {
    assert s[p + 4] == ImgOpen[4];
    forall d | 0 <= d < 3 ensures s[p + 5 + d] == "src"[d] {
      assert s[p + (5 + d)] == ImgOpen[5 + d];
    }
  }

  /** The `src` attribute right after `<img ` matches and ends the tag. */
  lemma ImgSource(s: string, p: nat, v: string)
    requires ImgShape(s, p, v)
    requires forall k :: 0 <= k < |v| ==> v[k] !in Quotes
    ensures SourceAt(s, p, p + 5) == Some(Hit(p + 26 + |v|, p, p, p + 10))
  {
    ImgName(s, p, v);
    ImgValue(s, p, v);
    TagAttributeClosed(s, p + 5, "src", p + 8, p + 25 + |v|, p + 10, p + 26 + |v|);
  }

  /** No later attribute position up to the tag's `>` matches. */
  lemma ImgNoLaterSource(s: string, p: nat, v: string, k: nat)
    requires ImgShape(s, p, v)
    requires forall j :: 0 <= j < |v| ==> v[j] !in Quotes
    requires p + 5 < k <= p + 25 + |v|
    ensures SourceAt(s, p, k).None?
  {
    if k < p + 24 {
      if k == p + 11 {
        assert s[p + 12] == ImgOpen[12];
        NotAtBy(s, "src", k, 1);
      } else {
        assert s[p + (k - p)] == ImgOpen[k - p];
        NotAtByFirst(s, "src", k);
      }
    } else {
      forall j | k <= j < p + 24 + |v| ensures s[j] !in Quotes {
        assert s[p + 24 + (j - p - 24)] == v[j - p - 24];
      }
      NoAttributeBeforeClose(s, k, p + 24 + |v|, "src");
    }
  }

  /** `<img` opens the tag as a whole word, and its first `>` is the one
      closing the tag or, when the value holds `>`, one inside the value. */
  lemma ImgOpening(s: string, p: nat, v: string)
    requires ImgShape(s, p, v)
    ensures IsAtIgnoringCase(s, "<img", p) && !IsWordChar(s[p + 4])
    ensures p + 24 <= FindAny(s, p + 4, {'>'}) <= p + 25 + |v|
  {
    forall d | 0 <= d < 4 ensures s[p + d] == "<img"[d] {
      assert s[p + d] == ImgOpen[d];
    }
    assert s[p + 4] == ImgOpen[4];
    forall k | p + 4 <= k < p + 24 ensures s[k] != '>' {
      assert s[p + (k - p)] == ImgOpen[k - p];
    }
    TagEndAtMost(s, p + 4, p + 24 + |v|);
  }

  /** Among the attribute positions the greedy `[^>]*` gives back, only the
      one right after `<img ` matches. */
  lemma ImgOnlySource(s: string, p: nat, v: string, q: nat)
    requires ImgShape(s, p, v)
    requires forall j :: 0 <= j < |v| ==> v[j] !in Quotes
    requires q <= p + 25 + |v|
    ensures forall k :: p + 5 < k <= q ==> Sources(s, p)(k).None?
  {
    forall k | p + 5 < k <= q ensures Sources(s, p)(k).None? {
      ImgNoLaterSource(s, p, v, k);
    }
  }

  /** The image rule matches the whole tag at `p`. */
  lemma ImageTagMatch(s: string, p: nat, v: string)
    requires ImgShape(s, p, v)
    requires forall k :: 0 <= k < |v| ==> v[k] !in Quotes
    ensures ImageTagAt(s, p) == Some(Hit(p + 26 + |v|, p, p, p + 10))
  {
    ImgOpening(s, p, v);
    var q := FindAny(s, p + 4, {'>'});
    ImgSource(s, p, v);
    assert Sources(s, p)(p + 5) == SourceAt(s, p, p + 5);
    ImgOnlySource(s, p, v, q);
    LastFoundIs(Sources(s, p), p + 4, q, p + 5);
  }

  lemma ImageTagMatchAt(s: string, a: nat, v: string)
    requires IsAt(s, ImgElement(v), a)
    requires forall k :: 0 <= k < |v| ==> v[k] !in Quotes
    ensures |ImgElement(v)| == |v| + 26 && a + |v| + 26 <= |s| && a < |s|
    ensures MatchAt(ImageTag, s, a).Some? && MatchAt(ImageTag, s, a).value.end == a + |ImgElement(v)|
    ensures MatchAt(ImageTag, s, a).value.keepLo == MatchAt(ImageTag, s, a).value.keepHi
  {
    ImgShapeOf(s, a, v);
    ImageTagMatch(s, a, v);
  }

  /** Wherever a scan from `p` first meets `<img src="vscode-file://V">`,
      for a value `V` without quotes (it may hold `>`), it copies the text
      before the tag, deletes the tag and goes on at `e`, right after it. */
  lemma ImageTagDeletedFrom(s: string, p: nat, a: nat, v: string, e: nat)
    requires p <= a && IsAt(s, ImgElement(v), a) && e == a + |ImgElement(v)|
    requires forall k :: 0 <= k < |v| ==> v[k] !in Quotes
    requires forall k :: p <= k < a ==> !OpensAt(ImageTag, s, k)
    ensures ReplaceFrom(ImageTag, s, p) == s[p..a] + ReplaceFrom(ImageTag, s, e)
  {
    ImageTagMatchAt(s, a, v);
    DeletedAt(ImageTag, s, p, a, e);
  }

  /** The tag is deleted from surrounding text: `x` before it holds no `<`
      and `y` after it holds no scheme token. */
  lemma ImageTagInContext(x: string, v: string, y: string)
    requires forall k :: 0 <= k < |x| ==> !OpensAt(ImageTag, x + ImgElement(v) + y, k)
    requires forall k :: 0 <= k < |v| ==> v[k] !in Quotes
    requires !ContainsIgnoringCase(y, Scheme)
    ensures Replace(ImageTag, x + ImgElement(v) + y) == x + y
  {
    var e := ImgElement(v);
    Framed(x, e, y);
    ImageTagMatchAt(x + e + y, |x|, v);
    DeletedInContext(ImageTag, x, e, y, x + e + y);
  }

  /** A text that is just the tag becomes empty. */
  lemma ImageTagRemoved(v: string)
    requires forall k :: 0 <= k < |v| ==> v[k] !in Quotes
    ensures Replace(ImageTag, ImgOpen + v + "\">") == ""
  {
    assert "" + ImgElement(v) + "" == ImgOpen + v + "\">";
    ImageTagInContext("", v, "");
  }

  // ----- <a href="vscode-file://V">TEXT</a> -----

  const AnchorOpen := "<a href=\"vscode-file://"

  function AnchorElement(v: string, text: string): string {
    AnchorOpen + v + "\">" + text + "</a>"
  }

  /** The character layout of `AnchorElement(v, text)` at offset `p` of `s`. */
  predicate AnchorShape(s: string, p: nat, v: string, text: string) {
    && p + |v| + |text| + 29 <= |s|
    && (forall k :: 0 <= k < 23 ==> s[p + k] == AnchorOpen[k])
    && (forall k :: 0 <= k < |v| ==> s[p + 23 + k] == v[k])
    && s[p + 23 + |v|] == '"' && s[p + 24 + |v|] == '>'
    && (forall k :: 0 <= k < |text| ==> s[p + 25 + |v| + k] == text[k])
    && (forall d :: 0 <= d < 4 ==> s[p + 25 + |v| + |text| + d] == "</a>"[d])
  }

  lemma AnchorShapeOf(s: string, p: nat, v: string, text: string)
    requires IsAt(s, AnchorElement(v, text), p)
    ensures |AnchorOpen| == 23 && |AnchorElement(v, text)| == |v| + |text| + 29
    ensures AnchorShape(s, p, v, text)
  {
    var e := AnchorElement(v, text);
    var n := |v| + |text|;
    forall k | 0 <= k < 23 ensures s[p + k] == AnchorOpen[k] {
      assert s[p + k] == e[k];
    }
    forall k | 0 <= k < |v| ensures s[p + 23 + k] == v[k] {
      assert s[p + 23 + k] == e[23 + k];
    }
    assert s[p + 23 + |v|] == e[23 + |v|];
    assert s[p + 24 + |v|] == e[24 + |v|];
    forall k | 0 <= k < |text| ensures s[p + 25 + |v| + k] == text[k] {
      assert s[p + 25 + |v| + k] == e[25 + |v| + k];
    }
    forall d | 0 <= d < 4 ensures s[p + 25 + |v| + |text| + d] == "</a>"[d] {
      assert s[p + 25 + |v| + |text| + d] == e[25 + n + d];
    }
  }

  /** A `</a>` inside the text would be one of the text. */
  lemma NoCloseInText(s: string, text: string, o: nat, k: nat)
    requires o <= k && k + 4 <= o + |text| <= |s|
    requires forall j :: 0 <= j < |text| ==> s[o + j] == text[j]
    requires !ContainsIgnoringCase(text, "</a>")
    ensures !IsAtIgnoringCase(s, "</a>", k)
  {
    if IsAtIgnoringCase(s, "</a>", k) {
      forall d | 0 <= d < 4 ensures Lower(text[k - o + d]) == Lower("</a>"[d]) {
        assert s[o + (k - o + d)] == text[k - o + d];
      }
      assert IsAtIgnoringCase(text, "</a>", k - o);
    }
  }

  /** The link text ends at the first `</a>` after the tag, which is the
      one closing the anchor when the text holds none. */
  lemma AnchorClose(s: string, p: nat, v: string, text: string, o: nat, e: nat)
    requires AnchorShape(s, p, v, text) && o == p + 25 + |v| && e == o + |text|
    requires !ContainsIgnoringCase(text, "</a>")
    ensures IndexOfIgnoringCaseFrom(s, "</a>", o) == Some(e)
  {
    assert IsAtIgnoringCase(s, "</a>", e) by {
      forall d | 0 <= d < 4 ensures Lower(s[e + d]) == Lower("</a>"[d]) {
        assert s[e + d] == "</a>"[d];
      }
    }
    forall k | o <= k < e ensures !IsAtIgnoringCase(s, "</a>", k) {
      if k + 4 <= e {
        NoCloseInText(s, text, o, k);
      } else {
        assert s[e + 0] == "</a>"[0] == '<';
        assert "</a>"[e - k] != '<';
        NotAtBy(s, "</a>", k, e - k);
      }
    }
  }

  /** `href` follows `<a ` as a whole word. */
  lemma AnchorName(s: string, p: nat, v: string, text: string)
    requires AnchorShape(s, p, v, text)
    ensures !IsWordChar(s[p + 2]) && IsAtIgnoringCase(s, "href", p + 3)
  {
    assert s[p + 2] == AnchorOpen[2];
    forall d | 0 <= d < 4 ensures s[p + 3 + d] == "href"[d] {
      assert s[p + (3 + d)] == AnchorOpen[3 + d];
    }
  }

  /** `="vscode-file://` follows `href`. */
  lemma AnchorScheme(s: string, p: nat, v: string, text: string)
    requires AnchorShape(s, p, v, text)
    ensures s[p + 7] == '=' && s[p + 8] in Quotes && IsAtIgnoringCase(s, Scheme, p + 9)
  {
    assert s[p + 7] == AnchorOpen[7] && s[p + 8] == AnchorOpen[8];
    forall d | 0 <= d < |Scheme| ensures s[p + 9 + d] == Scheme[d] {
      assert s[p + (9 + d)] == AnchorOpen[9 + d];
    }
  }

  /** The quoted value after `href` holds the scheme and ends at the
      closing quote. */
  lemma AnchorValue(s: string, p: nat, v: string, text: string, q: nat)
    requires AnchorShape(s, p, v, text) && q == p + 23 + |v|
    requires forall k :: 0 <= k < |v| ==> v[k] !in Quotes
    ensures QuotedSchemeValue(s, p + 7) == Some((q + 1, p + 9))
  {
    AnchorScheme(s, p, v, text);
    forall k | p + 23 <= k < q ensures s[k] !in Quotes {
      assert s[p + 23 + (k - p - 23)] == v[k - p - 23];
    }
    QuotedValueAt(s, p + 7, q, p + 9);
  }

  /** The `href` attribute right after `<a ` matches and ends the opening
      tag. */
  lemma AnchorAttribute(s: string, p: nat, v: string, text: string, q: nat, o: nat)
    requires AnchorShape(s, p, v, text) && q == p + 23 + |v| && o == q + 2
    requires forall k :: 0 <= k < |v| ==> v[k] !in Quotes
    ensures TagAttributeAt(s, p + 3, "href") == Some((o, p + 9))
  {
    AnchorName(s, p, v, text);
    AnchorValue(s, p, v, text, q);
    HrefAttribute(s, p, q, o);
  }

  /** `href` as a whole word at `p + 3`, then a quoted scheme value closed
      at `q`, then `>`: the attribute matches and ends the tag. */
  lemma HrefAttribute(s: string, p: nat, q: nat, o: nat)
    requires p + 3 <= |s| && !IsWordChar(s[p + 2]) && IsAtIgnoringCase(s, "href", p + 3)
    requires QuotedSchemeValue(s, p + 7) == Some((q + 1, p + 9))
    requires q + 1 < |s| && s[q + 1] == '>' && o == q + 2
    ensures TagAttributeAt(s, p + 3, "href") == Some((o, p + 9))
  {
    TagAttributeClosed(s, p + 3, "href", p + 7, q + 1, p + 9, o);
  }

  /** The `href` attribute right after `<a ` matches, and keeps the link text. */
  lemma AnchorHref(s: string, p: nat, v: string, text: string)
    requires AnchorShape(s, p, v, text)
    requires forall k :: 0 <= k < |v| ==> v[k] !in Quotes
    requires !ContainsIgnoringCase(text, "</a>")
    ensures HrefAt(s, p, p + 3)
            == Some(Hit(p + 29 + |v| + |text|, p + 25 + |v|, p + 25 + |v| + |text|, p + 9))
  {
    var h := Hit(p + 29 + |v| + |text|, p + 25 + |v|, p + 25 + |v| + |text|, p + 9);
    AnchorAttribute(s, p, v, text, p + 23 + |v|, h.keepLo);
    AnchorClose(s, p, v, text, h.keepLo, h.keepHi);
    HrefFrom(s, p, h);
  }

  /** An `href` match whose opening tag ends before `h.keepLo`, followed by
      a first `</a>` at `h.keepHi`, is `h`: it keeps the text in between and
      ends just past the `</a>`. */
  lemma HrefFrom(s: string, p: nat, h: Hit)
    requires p + 3 <= |s| && TagAttributeAt(s, p + 3, "href") == Some((h.keepLo, h.scheme))
    requires IndexOfIgnoringCaseFrom(s, "</a>", h.keepLo) == Some(h.keepHi) && h.end == h.keepHi + 4
    ensures HrefAt(s, p, p + 3) == Some(h)
  {
    BodyFrom(s, h.keepLo, h.keepHi, h.scheme, h.end);
  }

  lemma BodyFrom(s: string, o: nat, c: nat, at: nat, e: nat)
    requires o <= |s| && IndexOfIgnoringCaseFrom(s, "</a>", o) == Some(c) && e == c + 4
    ensures BodyAfter(s, o, at) == Some(Hit(e, o, c, at))
  {
  }

  /** No later attribute position up to the tag's `>` matches. */
  lemma AnchorNoLaterHref(s: string, p: nat, v: string, text: string, k: nat)
    requires AnchorShape(s, p, v, text)
    requires forall j :: 0 <= j < |v| ==> v[j] !in Quotes
    requires p + 3 < k <= p + 24 + |v|
    ensures HrefAt(s, p, k).None?
  {
    if k < p + 23 {
      assert s[p + (k - p)] == AnchorOpen[k - p];
      NotAtByFirst(s, "href", k);
    } else {
      forall j | k <= j < p + 23 + |v| ensures s[j] !in Quotes {
        assert s[p + 23 + (j - p - 23)] == v[j - p - 23];
      }
      NoAttributeBeforeClose(s, k, p + 23 + |v|, "href");
    }
  }

  /** `<a` and a space open the anchor, and its first `>` is the one
      closing the opening tag or, when the value holds `>`, one inside the
      value. */
  lemma AnchorOpening(s: string, p: nat, v: string, text: string)
    requires AnchorShape(s, p, v, text)
    ensures IsAtIgnoringCase(s, "<a", p) && p + 2 < |s| && IsSpace(s[p + 2])
    ensures p + 23 <= FindAny(s, p + 3, {'>'}) <= p + 24 + |v|
  {
    forall d | 0 <= d < 2 ensures s[p + d] == "<a"[d] {
      assert s[p + d] == AnchorOpen[d];
    }
    assert s[p + 2] == AnchorOpen[2];
    forall k | p + 3 <= k < p + 23 ensures s[k] != '>' {
      assert s[p + (k - p)] == AnchorOpen[k - p];
    }
    TagEndAtMost(s, p + 3, p + 23 + |v|);
  }

  /** Among the attribute positions the greedy `[^>]*` gives back, only the
      one right after `<a ` matches. */
  lemma AnchorOnlyHref(s: string, p: nat, v: string, text: string, q: nat)
    requires AnchorShape(s, p, v, text)
    requires forall j :: 0 <= j < |v| ==> v[j] !in Quotes
    requires q <= p + 24 + |v|
    ensures forall k :: p + 3 < k <= q ==> Hrefs(s, p)(k).None?
  {
    forall k | p + 3 < k <= q ensures Hrefs(s, p)(k).None? {
      AnchorNoLaterHref(s, p, v, text, k);
    }
  }

  /** The anchor rule matches the whole anchor at `p`. */
  lemma AnchorMatch(s: string, p: nat, v: string, text: string)
    requires AnchorShape(s, p, v, text)
    requires forall k :: 0 <= k < |v| ==> v[k] !in Quotes
    requires !ContainsIgnoringCase(text, "</a>")
    ensures AnchorTagAt(s, p)
            == Some(Hit(p + 29 + |v| + |text|, p + 25 + |v|, p + 25 + |v| + |text|, p + 9))
  {
    AnchorOpening(s, p, v, text);
    var q := FindAny(s, p + 3, {'>'});
    AnchorHref(s, p, v, text);
    assert Hrefs(s, p)(p + 3) == HrefAt(s, p, p + 3);
    AnchorOnlyHref(s, p, v, text, q);
    LastFoundIs(Hrefs(s, p), p + 3, q, p + 3);
  }

  lemma AnchorMatchAt(s: string, a: nat, v: string, text: string)
    requires IsAt(s, AnchorElement(v, text), a)
    requires forall k :: 0 <= k < |v| ==> v[k] !in Quotes
    requires !ContainsIgnoringCase(text, "</a>")
    ensures |AnchorElement(v, text)| == |v| + |text| + 29 && a + |v| + |text| + 29 <= |s| && a < |s|
    ensures MatchAt(AnchorTag, s, a).Some? && MatchAt(AnchorTag, s, a).value.end == a + |AnchorElement(v, text)|
    ensures s[MatchAt(AnchorTag, s, a).value.keepLo..MatchAt(AnchorTag, s, a).value.keepHi] == text
  {
    AnchorShapeOf(s, a, v, text);
    AnchorMatch(s, a, v, text);
    AnchorTextAt(s, a, v, text);
  }

  /** The link text sits where the anchor's kept slice is. */
  lemma AnchorTextAt(s: string, a: nat, v: string, text: string)
    requires AnchorShape(s, a, v, text)
    ensures s[a + 25 + |v|..a + 25 + |v| + |text|] == text
  {
    var lo := a + 25 + |v|;
    forall i | 0 <= i < |text| ensures s[lo..lo + |text|][i] == text[i] {
      assert s[lo..lo + |text|][i] == s[lo + i];
    }
  }

  /** Wherever a scan from `p` first meets `<a href="vscode-file://V">TEXT</a>`,
      for a value `V` without quotes and a `TEXT` without `</a>` in any letter
      case, it copies the text before the anchor, writes `TEXT` and goes on
      at `e`, right after the closing `</a>`. What follows, a further `</a>` or a further
      anchor included, is left to the rest of the scan. */
  lemma AnchorUnwrappedFrom(s: string, p: nat, a: nat, v: string, text: string, e: nat)
    requires p <= a && IsAt(s, AnchorElement(v, text), a) && e == a + |AnchorElement(v, text)|
    requires forall k :: 0 <= k < |v| ==> v[k] !in Quotes
    requires !ContainsIgnoringCase(text, "</a>")
    requires forall k :: p <= k < a ==> !OpensAt(AnchorTag, s, k)
    ensures ReplaceFrom(AnchorTag, s, p) == s[p..a] + text + ReplaceFrom(AnchorTag, s, e)
  {
    AnchorMatchAt(s, a, v, text);
    KeptAt(AnchorTag, s, p, a, e, text);
  }

  /** The anchor is unwrapped inside surrounding text: `x` before it holds
      no `<`, and `y` after it holds no scheme token (it may hold `</a>`). */
  lemma AnchorInContext(x: string, v: string, text: string, y: string)
    requires forall k :: 0 <= k < |x| ==> !OpensAt(AnchorTag, x + AnchorElement(v, text) + y, k)
    requires forall k :: 0 <= k < |v| ==> v[k] !in Quotes
    requires !ContainsIgnoringCase(text, "</a>")
    requires !ContainsIgnoringCase(y, Scheme)
    ensures Replace(AnchorTag, x + AnchorElement(v, text) + y) == x + text + y
  {
    var e := AnchorElement(v, text);
    Framed(x, e, y);
    AnchorMatchAt(x + e + y, |x|, v, text);
    KeptInContext(AnchorTag, x, e, y, x + e + y, text);
  }

  /** A text that is just the anchor becomes its link text. */
  lemma AnchorUnwrapped(v: string, text: string)
    requires forall k :: 0 <= k < |v| ==> v[k] !in Quotes
    requires !ContainsIgnoringCase(text, "</a>")
    ensures Replace(AnchorTag, AnchorOpen + v + "\">" + text + "</a>") == text
  {
    assert "" + AnchorElement(v, text) + "" == AnchorOpen + v + "\">" + text + "</a>";
    AnchorInContext("", v, text, "");
    assert "" + text + "" == text;
  }

  // ----- ![ALT](vscode-file://V) -----

  const ImageTargetOpen := "](vscode-file://"

  function MarkdownImageText(alt: string, v: string): string {
    "![" + alt + ImageTargetOpen + v + ")"
  }

  /** The character layout of `MarkdownImageText(alt, v)` at offset `p` of `s`. */
  predicate MarkdownShape(s: string, p: nat, alt: string, v: string) {
    && p + |alt| + |v| + 19 <= |s|
    && s[p] == '!' && s[p + 1] == '['
    && (forall k :: 0 <= k < |alt| ==> s[p + 2 + k] == alt[k])
    && (forall k :: 0 <= k < 16 ==> s[p + 2 + |alt| + k] == ImageTargetOpen[k])
    && (forall k :: 0 <= k < |v| ==> s[p + 18 + |alt| + k] == v[k])
    && s[p + 18 + |alt| + |v|] == ')'
  }

  lemma MarkdownShapeOf(s: string, p: nat, alt: string, v: string)
    requires IsAt(s, MarkdownImageText(alt, v), p)
    ensures |ImageTargetOpen| == 16 && |MarkdownImageText(alt, v)| == |alt| + |v| + 19
    ensures MarkdownShape(s, p, alt, v)
  {
    var e := MarkdownImageText(alt, v);
    assert s[p] == e[0];
    assert s[p + 1] == e[1];
    forall k | 0 <= k < |alt| ensures s[p + 2 + k] == alt[k] {
      assert s[p + 2 + k] == e[2 + k];
    }
    forall k | 0 <= k < 16 ensures s[p + 2 + |alt| + k] == ImageTargetOpen[k] {
      assert s[p + 2 + |alt| + k] == e[2 + |alt| + k];
    }
    forall k | 0 <= k < |v| ensures s[p + 18 + |alt| + k] == v[k] {
      assert s[p + 18 + |alt| + k] == e[18 + |alt| + k];
    }
    assert s[p + 18 + |alt| + |v|] == e[18 + |alt| + |v|];
  }

  /** The target tried at the `]` that closes the alt text matches and ends
      at the closing parenthesis. */
  lemma MarkdownTarget(s: string, p: nat, alt: string, v: string)
    requires MarkdownShape(s, p, alt, v)
    requires forall k :: 0 <= k < |v| ==> v[k] != ')'
    ensures ImageTargetAt(s, p, p + 2 + |alt|) == Some(Hit(p + 19 + |alt| + |v|, p, p, p + 4 + |alt|))
  {
    var j := p + 2 + |alt|;
    var c := p + 18 + |alt| + |v|;
    assert s[j + 0] == ImageTargetOpen[0] && s[j + 1] == ImageTargetOpen[1];
    assert SkipSpaces(s, j + 2) == j + 2 by {
      assert s[j + 2] == ImageTargetOpen[2];
    }
    assert IsAtIgnoringCase(s, Scheme, j + 2) by {
      forall d | 0 <= d < |Scheme| ensures s[j + 2 + d] == Scheme[d] {
        assert s[j + (2 + d)] == ImageTargetOpen[2 + d];
      }
    }
    forall k | j + 16 <= k < c ensures s[k] !in {')'} {
      assert s[p + 18 + |alt| + (k - j - 16)] == v[k - j - 16];
    }
    FindAnyAt(s, j + 16, {')'}, c);
  }

  /** The Markdown-image rule matches the whole image at `p`. */
  lemma MarkdownMatch(s: string, p: nat, alt: string, v: string)
    requires MarkdownShape(s, p, alt, v)
    requires forall k :: 0 <= k < |alt| ==> alt[k] != ']'
    requires forall k :: 0 <= k < |v| ==> v[k] != ')'
    ensures MarkdownImageAt(s, p) == Some(Hit(p + 19 + |alt| + |v|, p, p, p + 4 + |alt|))
  {
    MarkdownTarget(s, p, alt, v);
    NoTargetInAlt(s, p, alt, v);
    FirstImageTargetIs(s, p, p + 2, p + 2 + |alt|);
    assert MarkdownImageAt(s, p) == FirstImageTarget(s, p, p + 2);
  }

  /** No `]` position inside an alt text without `]` starts a target. */
  lemma NoTargetInAlt(s: string, p: nat, alt: string, v: string)
    requires MarkdownShape(s, p, alt, v)
    requires forall k :: 0 <= k < |alt| ==> alt[k] != ']'
    ensures forall j :: p + 2 <= j < p + 2 + |alt| ==> ImageTargetAt(s, p, j).None?
  {
    forall j | p + 2 <= j < p + 2 + |alt| ensures ImageTargetAt(s, p, j).None? {
      assert s[p + 2 + (j - p - 2)] == alt[j - p - 2];
    }
  }

  lemma MarkdownMatchAt(s: string, a: nat, alt: string, v: string)
    requires IsAt(s, MarkdownImageText(alt, v), a)
    requires forall k :: 0 <= k < |alt| ==> alt[k] != ']'
    requires forall k :: 0 <= k < |v| ==> v[k] != ')'
    ensures |MarkdownImageText(alt, v)| == |alt| + |v| + 19 && a + |alt| + |v| + 19 <= |s| && a < |s|
    ensures MatchAt(MarkdownImage, s, a).Some? && MatchAt(MarkdownImage, s, a).value.end == a + |MarkdownImageText(alt, v)|
    ensures MatchAt(MarkdownImage, s, a).value.keepLo == MatchAt(MarkdownImage, s, a).value.keepHi
  {
    MarkdownShapeOf(s, a, alt, v);
    MarkdownMatch(s, a, alt, v);
  }

  /** Wherever a scan from `p` first meets `![ALT](vscode-file://V)`, for an
      alt text without `]` and a target without `)`, it copies the text
      before the image, deletes the image and goes on at `e`, right after it. */
  lemma MarkdownImageDeletedFrom(s: string, p: nat, a: nat, alt: string, v: string, e: nat)
    requires p <= a && IsAt(s, MarkdownImageText(alt, v), a) && e == a + |MarkdownImageText(alt, v)|
    requires forall k :: 0 <= k < |alt| ==> alt[k] != ']'
    requires forall k :: 0 <= k < |v| ==> v[k] != ')'
    requires forall k :: p <= k < a ==> !OpensAt(MarkdownImage, s, k)
    ensures ReplaceFrom(MarkdownImage, s, p) == s[p..a] + ReplaceFrom(MarkdownImage, s, e)
  {
    MarkdownMatchAt(s, a, alt, v);
    DeletedAt(MarkdownImage, s, p, a, e);
  }

  /** The image is deleted from surrounding text: `x` before it holds no
      `!`, and `y` after it holds no scheme token. */
  lemma MarkdownImageInContext(x: string, alt: string, v: string, y: string)
    requires forall k :: 0 <= k < |x| ==> !OpensAt(MarkdownImage, x + MarkdownImageText(alt, v) + y, k)
    requires forall k :: 0 <= k < |alt| ==> alt[k] != ']'
    requires forall k :: 0 <= k < |v| ==> v[k] != ')'
    requires !ContainsIgnoringCase(y, Scheme)
    ensures Replace(MarkdownImage, x + MarkdownImageText(alt, v) + y) == x + y
  {
    var e := MarkdownImageText(alt, v);
    Framed(x, e, y);
    MarkdownMatchAt(x + e + y, |x|, alt, v);
    DeletedInContext(MarkdownImage, x, e, y, x + e + y);
  }

  /** A text that is just the image becomes empty. */
  lemma MarkdownImageRemoved(alt: string, v: string)
    requires forall k :: 0 <= k < |alt| ==> alt[k] != ']'
    requires forall k :: 0 <= k < |v| ==> v[k] != ')'
    ensures Replace(MarkdownImage, "![" + alt + ImageTargetOpen + v + ")") == ""
  {
    assert "" + MarkdownImageText(alt, v) + "" == "![" + alt + ImageTargetOpen + v + ")";
    MarkdownImageInContext("", alt, v, "");
  }

  // ----- Worked examples through all three rewrites -----

  lemma ImgExample()
    ensures RemoveVsCodeLinks("<img src=\"vscode-file://x/y.png\">") == ""
  {
    var v := "x/y.png";
    assert ImgOpen + v + "\">" == "<img src=\"vscode-file://x/y.png\">";
    ImageTagRemoved(v);
  }

  /** An anchor is no image tag: the first rewrite leaves it alone. */
  lemma AnchorNoImage(s: string)
    requires s == "<a href=\"vscode-file://x\">label</a>"
    ensures Replace(ImageTag, s) == s
  {
    assert s == [] + AnchorElement("x", "label") + [];
    Framed([], AnchorElement("x", "label"), []);
    NoImgInAnchorAt(s, 0, "x", "label");
    NoImgUnchanged(s);
  }

  lemma LabelHasNoClose()
    ensures !ContainsIgnoringCase("label", "</a>")
  {
    forall k | 0 <= k <= 5 ensures !IsAtIgnoringCase("label", "</a>", k) {
      if k + 4 <= 5 {
        NotAtBy("label", "</a>", k, 0);
      }
    }
  }

  lemma AnchorExampleUnwrapped(s: string)
    requires s == "<a href=\"vscode-file://x\">label</a>"
    ensures Replace(AnchorTag, s) == "label"
  {
    assert AnchorOpen + "x" + "\">" + "label" + "</a>" == s;
    LabelHasNoClose();
    AnchorUnwrapped("x", "label");
  }

  /** `<a href="vscode-file://x">label</a>` becomes `label`: the image rewrite
      leaves it alone, the anchor rewrite unwraps it, and the Markdown-image
      rewrite leaves `label` alone. */
  lemma AnchorExample(s: string)
    requires s == "<a href=\"vscode-file://x\">label</a>"
    ensures RemoveVsCodeLinks(s) == "label"
  {
    AnchorNoImage(s);
    AnchorExampleUnwrapped(s);
    ShortUnchanged(MarkdownImage, "label");
  }

  /** Neither tag rule matches where no `<` is. */
  lemma NoTagWithoutAngle(rule: Rule, s: string)
    requires rule != MarkdownImage
    requires forall k :: 0 <= k < |s| ==> s[k] != '<'
    ensures Replace(rule, s) == s
  {
    forall k | 0 <= k < |s| ensures MatchAt(rule, s, k).None? {
      NotOpenedWithout(rule, s, k);
    }
    ReplaceWithoutMatches(rule, s);
  }

  lemma MarkdownExampleNoTags(s: string)
    requires s == "![](vscode-file://x)"
    ensures Replace(AnchorTag, Replace(ImageTag, s)) == s
  {
    assert forall k :: 0 <= k < |s| ==> s[k] != '<';
    NoTagWithoutAngle(ImageTag, s);
    NoTagWithoutAngle(AnchorTag, s);
  }

  lemma MarkdownExampleRemoved(s: string)
    requires s == "![](vscode-file://x)"
    ensures Replace(MarkdownImage, s) == ""
  {
    assert "![" + "" + ImageTargetOpen + "x" + ")" == s;
    MarkdownImageRemoved("", "x");
  }

  /** `![](vscode-file://x)` becomes the empty string: the two tag rewrites
      leave it alone and the Markdown-image rewrite deletes it. */
  lemma MarkdownExample(s: string)
    requires s == "![](vscode-file://x)"
    ensures RemoveVsCodeLinks(s) == ""
  {
    MarkdownExampleNoTags(s);
    MarkdownExampleRemoved(s);
  }

  // ----- Two editor anchors in a row -----

  /** `<a href="vscode-file://x">A</a> <a href="vscode-file://y">B</a>`. */
  const TwoAnchors := AnchorElement("x", "A") + " " + AnchorElement("y", "B")

  /** `e1` and `e2` sit around `m` in `e1 + m + e2`. */
  lemma Pair(e1: string, m: string, e2: string)
    ensures IsAt(e1 + m + e2, e1, 0) && IsAt(e1 + m + e2, e2, |e1| + |m|)
    ensures forall k :: 0 <= k < |m| ==> (e1 + m + e2)[|e1| + k] == m[k]
  {
  }

  /** An anchor whose value and text hold no `<` contains no `<img`: its
      only `<` are those of `<a` and `</a>`, each followed by another letter. */
  lemma NoImgInAnchor(s: string, p: nat, v: string, text: string, k: nat)
    requires AnchorShape(s, p, v, text)
    requires forall j :: 0 <= j < |v| ==> v[j] != '<'
    requires forall j :: 0 <= j < |text| ==> text[j] != '<'
    requires p <= k < p + |v| + |text| + 29
    ensures !IsAtIgnoringCase(s, "<img", k)
  {
    var c := p + 25 + |v| + |text|;
    if k == p {
      assert s[p + 1] == AnchorOpen[1];
      NotAtBy(s, "<img", k, 1);
    } else if k < p + 23 {
      assert s[p + (k - p)] == AnchorOpen[k - p];
      NotAtBy(s, "<img", k, 0);
    } else if k < p + 23 + |v| {
      assert s[p + 23 + (k - p - 23)] == v[k - p - 23];
      NotAtBy(s, "<img", k, 0);
    } else if k < p + 25 + |v| {
      NotAtBy(s, "<img", k, 0);
    } else if k < c {
      assert s[p + 25 + |v| + (k - p - 25 - |v|)] == text[k - p - 25 - |v|];
      NotAtBy(s, "<img", k, 0);
    } else if k == c {
      assert s[c + 1] == "</a>"[1];
      NotAtBy(s, "<img", k, 1);
    } else {
      assert s[c + (k - c)] == "</a>"[k - c];
      NotAtBy(s, "<img", k, 0);
    }
  }

  /** The same for every offset of an anchor that sits at `p`. */
  lemma NoImgInAnchorAt(s: string, p: nat, v: string, text: string)
    requires IsAt(s, AnchorElement(v, text), p)
    requires forall j :: 0 <= j < |v| ==> v[j] != '<'
    requires forall j :: 0 <= j < |text| ==> text[j] != '<'
    ensures |AnchorElement(v, text)| == |v| + |text| + 29
    ensures forall k :: p <= k < p + |AnchorElement(v, text)| ==> !IsAtIgnoringCase(s, "<img", k)
  {
    AnchorShapeOf(s, p, v, text);
    forall k | p <= k < p + |AnchorElement(v, text)| ensures !IsAtIgnoringCase(s, "<img", k) {
      NoImgInAnchor(s, p, v, text, k);
    }
  }

  /** The image rewrite leaves a text without `<img` alone. */
  lemma NoImgUnchanged(s: string)
    requires forall k :: 0 <= k < |s| ==> !IsAtIgnoringCase(s, "<img", k)
    ensures Replace(ImageTag, s) == s
  {
    forall k | 0 <= k < |s| ensures MatchAt(ImageTag, s, k).None? {
      NoImageTagAt(s, k);
    }
    ReplaceWithoutMatches(ImageTag, s);
  }

  /** No `<` of the two anchors starts `<img`. */
  lemma TwoAnchorsNoImage(s: string)
    requires s == TwoAnchors
    ensures Replace(ImageTag, s) == s
  {
    var e1, e2 := AnchorElement("x", "A"), AnchorElement("y", "B");
    Pair(e1, " ", e2);
    NoImgInAnchorAt(s, 0, "x", "A");
    NoImgInAnchorAt(s, 32, "y", "B");
    assert s[31 + 0] == " "[0];
    NotAtBy(s, "<img", 31, 0);
    NoImgUnchanged(s);
  }

  /** Both anchors are unwrapped, each body ending at its own `</a>`, and
      the space between them is copied. */
  lemma TwoAnchorsUnwrapped(s: string)
    requires s == TwoAnchors
    ensures Replace(AnchorTag, s) == "A B"
  {
    var e1, e2 := AnchorElement("x", "A"), AnchorElement("y", "B");
    Pair(e1, " ", e2);
    assert |e1| == 31 && |e2| == 31 && |s| == 63;
    var rest := ReplaceFrom(AnchorTag, s, 31);
    calc {
      Replace(AnchorTag, s);
    ==  { AnchorUnwrappedFrom(s, 0, 0, "x", "A", 31); }
      s[0..0] + "A" + rest;
    ==  { SecondAnchorUnwrapped(s); assert s[0..0] == []; }
      [] + "A" + (" " + "B" + []);
    ==  { Join("A", " ", "B"); }
      "A B";
    }
  }

  /** The scan resumes after the first anchor, copies the space and
      unwraps the second anchor. */
  lemma SecondAnchorUnwrapped(s: string)
    requires s == TwoAnchors
    ensures |s| == 63 && ReplaceFrom(AnchorTag, s, 31) == " " + "B" + []
  {
    var e1, e2 := AnchorElement("x", "A"), AnchorElement("y", "B");
    Pair(e1, " ", e2);
    assert |e1| == 31 && |e2| == 31 && |s| == 63 && s[31 + 0] == " "[0];
    SpaceThenAnchor(s, 31, "y", "B", 63);
    ReplaceAtEnd(AnchorTag, s);
  }

  /** A space, then an anchor: the space is copied and the anchor unwrapped. */
  lemma SpaceThenAnchor(s: string, p: nat, v: string, text: string, e: nat)
    requires p < |s| && s[p] == ' '
    requires IsAt(s, AnchorElement(v, text), p + 1) && e == p + 1 + |AnchorElement(v, text)|
    requires forall k :: 0 <= k < |v| ==> v[k] !in Quotes
    requires !ContainsIgnoringCase(text, "</a>")
    ensures ReplaceFrom(AnchorTag, s, p) == " " + text + ReplaceFrom(AnchorTag, s, e)
  {
    NotOpenedWithout(AnchorTag, s, p);
    AnchorUnwrappedFrom(s, p, p + 1, v, text, e);
    assert s[p..p + 1] == " ";
  }

  lemma Join(a: string, m: string, b: string)
    ensures [] + a + (m + b + []) == a + m + b
  {
  }

  /** `<a href="vscode-file://x">A</a> <a href="vscode-file://y">B</a>`
      becomes `A B`: every match of the anchor rewrite is replaced, not only
      the first, and each link text stops at the first `</a>` after it. */
  lemma TwoAnchorsExample(s: string)
    requires s == TwoAnchors
    ensures RemoveVsCodeLinks(s) == "A B"
  {
    TwoAnchorsNoImage(s);
    TwoAnchorsUnwrapped(s);
    ShortUnchanged(MarkdownImage, "A B");
  }

}

=== FILE: subsequences.dfy ===
/** "Obtained by deleting elements": the relation every rewrite of the
    pipeline keeps between its output and its input. */
module Subsequences {

  /** `a` is `b` with some elements deleted (none inserted, none reordered). */
  predicate IsSubseq<T(==)>(a: seq<T>, b: seq<T>)
    decreases |b|
  {
    if |a| == 0 then true
    else if |b| == 0 then false
    else (a[0] == b[0] && IsSubseq(a[1..], b[1..])) || IsSubseq(a, b[1..])
  }

  lemma {:induction false} SubseqLength<T>(a: seq<T>, b: seq<T>)
    requires IsSubseq(a, b)
    ensures |a| <= |b|
    decreases |b|
  {
    if |a| > 0 {
      if a[0] == b[0] && IsSubseq(a[1..], b[1..]) {
        SubseqLength(a[1..], b[1..]);
      } else {
        SubseqLength(a, b[1..]);
      }
    }
  }

  lemma {:induction false} SubseqRefl<T>(a: seq<T>)
    ensures IsSubseq(a, a)
    decreases |a|
  {
    if |a| > 0 {
      SubseqRefl(a[1..]);
    }
  }

  /** Deleting a whole prefix keeps the relation. */
  lemma {:induction false} SubseqPrepend<T>(a: seq<T>, x: seq<T>, b: seq<T>)
    requires IsSubseq(a, b)
    ensures IsSubseq(a, x + b)
    decreases |x|
  {
    if |x| > 0 {
      SubseqPrepend(a, x[1..], b);
      assert (x + b)[1..] == x[1..] + b;
      if |a| > 0 {
        assert IsSubseq(a, (x + b)[1..]);
      }
    } else {
      assert x + b == b;
    }
  }

  /** The relation is compatible with concatenation. */
  lemma {:induction false} SubseqAppend<T>(a1: seq<T>, b1: seq<T>, a2: seq<T>, b2: seq<T>)
    requires IsSubseq(a1, b1) && IsSubseq(a2, b2)
    ensures IsSubseq(a1 + a2, b1 + b2)
    decreases |b1|
  {
    if |a1| == 0 {
      assert a1 + a2 == a2;
      SubseqPrepend(a2, b1, b2);
    } else {
      assert (b1 + b2)[1..] == b1[1..] + b2;
      if a1[0] == b1[0] && IsSubseq(a1[1..], b1[1..]) {
        SubseqAppend(a1[1..], b1[1..], a2, b2);
        assert (a1 + a2)[1..] == a1[1..] + a2;
      } else {
        SubseqAppend(a1, b1[1..], a2, b2);
      }
    }
  }

  lemma {:induction false} SubseqTrans<T>(a: seq<T>, b: seq<T>, c: seq<T>)
    requires IsSubseq(a, b) && IsSubseq(b, c)
    ensures IsSubseq(a, c)
    decreases |c|
  {
    if |a| > 0 {
      SubseqLength(a, b);
      SubseqLength(b, c);
      if b[0] == c[0] && IsSubseq(b[1..], c[1..]) {
        if a[0] == b[0] && IsSubseq(a[1..], b[1..]) {
          SubseqTrans(a[1..], b[1..], c[1..]);
        } else {
          SubseqTrans(a, b[1..], c[1..]);
        }
      } else {
        SubseqTrans(a, b, c[1..]);
      }
    }
  }

  /** Any slice is a subsequence of the whole. */
  lemma SliceIsSubseq<T>(s: seq<T>, i: nat, j: nat)
    requires i <= j <= |s|
    ensures IsSubseq(s[i..j], s)
  {
    SubseqRefl(s[i..j]);
    SubseqPrepend(s[i..j], s[..i], s[i..j]);
    assert IsSubseq([], s[j..]);
    SubseqAppend(s[i..j], s[..i] + s[i..j], [], s[j..]);
    assert s[i..j] + [] == s[i..j];
    assert s[..i] + s[i..j] + s[j..] == s;
  }

  /** A slice of `s` inside `s[a..b]` is a subsequence of `s[a..b]`. */
  lemma InnerSliceIsSubseq<T>(s: seq<T>, a: nat, i: nat, j: nat, b: nat)
    requires a <= i <= j <= b <= |s|
    ensures IsSubseq(s[i..j], s[a..b])
  {
    var m := s[a..b];
    SliceIsSubseq(m, i - a, j - a);
    assert |m[i - a..j - a]| == |s[i..j]|;
    forall t | 0 <= t < j - i ensures m[i - a..j - a][t] == s[i..j][t] {
      assert m[i - a..j - a][t] == m[i - a + t] == s[a + (i - a + t)];
    }
    assert m[i - a..j - a] == s[i..j];
  }
}

=== FILE: text.dfy ===
/** Character classes and substring search, as used by the text pipeline.

    Every search here is ordinal (character by character); the case-insensitive
    variants fold ASCII letters only.
 */
module Text {

  datatype Option<+T> = None | Some(value: T)

  /** ASCII lower-casing; every other character is its own lower case. */
  function Lower(c: char): char {
    if 'A' <= c <= 'Z' then (c as int + 32) as char else c
  }

  /** The whitespace set of `Char.IsWhiteSpace`, which is also the set `\s`
      matches in a .NET regular expression: U+0009..U+000D, U+0085 and the
      space, line and paragraph separators. */
  predicate IsSpace(c: char) {
    || '\U{0009}' <= c <= '\U{000D}'
    || c == ' ' || c == '\U{0085}' || c == '\U{00A0}' || c == '\U{1680}'
    || '\U{2000}' <= c <= '\U{200A}'
    || c == '\U{2028}' || c == '\U{2029}' || c == '\U{202F}' || c == '\U{205F}' || c == '\U{3000}'
  }

  /** A word character for `\b`: ASCII letters, digits and underscore. */
  predicate IsWordChar(c: char) {
    'a' <= c <= 'z' || 'A' <= c <= 'Z' || '0' <= c <= '9' || c == '_'
  }

  /** `string.IsNullOrWhiteSpace` for a non-null string. */
  predicate IsBlank(s: string) {
    forall k :: 0 <= k < |s| ==> IsSpace(s[k])
  }

  /** `pat` occurs in `s` at offset `i`. */
  predicate IsAt(s: string, pat: string, i: nat) {
    i + |pat| <= |s| && forall k :: 0 <= k < |pat| ==> s[i + k] == pat[k]
  }

  /** `pat` occurs in `s` at offset `i`, up to ASCII case. */
  predicate IsAtIgnoringCase(s: string, pat: string, i: nat) {
    i + |pat| <= |s| && forall k :: 0 <= k < |pat| ==> Lower(s[i + k]) == Lower(pat[k])
  }

  /** `i` is the first offset where `pat` occurs in `s`. */
  predicate FirstAt(s: string, pat: string, i: nat) {
    IsAt(s, pat, i) && forall k: nat :: k < i ==> !IsAt(s, pat, k)
  }

  predicate Contains(s: string, pat: string) {
    exists k :: 0 <= k <= |s| && IsAt(s, pat, k)
  }

  predicate ContainsIgnoringCase(s: string, pat: string) {
    exists k :: 0 <= k <= |s| && IsAtIgnoringCase(s, pat, k)
  }

  /** `string.IndexOf(pat, from)` with ordinal comparison: the first
      occurrence of `pat` at or after `from`. */
  function IndexOfFrom(s: string, pat: string, from: nat): (r: Option<nat>)
    requires from <= |s|
    ensures r.Some? ==> from <= r.value && IsAt(s, pat, r.value)
    ensures r.Some? ==> forall k: nat :: from <= k < r.value ==> !IsAt(s, pat, k)
    ensures r.None? ==> forall k: nat :: from <= k ==> !IsAt(s, pat, k)
    decreases |s| - from
  {
    if IsAt(s, pat, from) then Some(from)
    else if from == |s| then None
    else IndexOfFrom(s, pat, from + 1)
  }

  /** The same search, up to ASCII case (`StringComparison.OrdinalIgnoreCase`
      restricted to ASCII, and the `RegexOptions.IgnoreCase` literal). */
  function IndexOfIgnoringCaseFrom(s: string, pat: string, from: nat): (r: Option<nat>)
    requires from <= |s|
    ensures r.Some? ==> from <= r.value && IsAtIgnoringCase(s, pat, r.value)
    ensures r.Some? ==> forall k: nat :: from <= k < r.value ==> !IsAtIgnoringCase(s, pat, k)
    ensures r.None? ==> forall k: nat :: from <= k ==> !IsAtIgnoringCase(s, pat, k)
    decreases |s| - from
  {
    if IsAtIgnoringCase(s, pat, from) then Some(from)
    else if from == |s| then None
    else IndexOfIgnoringCaseFrom(s, pat, from + 1)
  }

  /** `string.IndexOf(pat)`: the first occurrence, found exactly when `pat` occurs. */
  function IndexOf(s: string, pat: string): (r: Option<nat>)
    ensures r.Some? <==> Contains(s, pat)
    ensures r.Some? ==> FirstAt(s, pat, r.value)
    ensures forall i: nat :: FirstAt(s, pat, i) ==> r == Some(i)
  {
    IndexOfFrom(s, pat, 0)
  }

  /** The first index at or after `i` holding a character of `cs`, or `|s|`:
      where a greedy `[^cs]*` starting at `i` stops. */
  function FindAny(s: string, i: nat, cs: set<char>): (r: nat)
    requires i <= |s|
    ensures i <= r <= |s|
    ensures forall k :: i <= k < r ==> s[k] !in cs
    ensures r < |s| ==> s[r] in cs
    decreases |s| - i
  {
    if i == |s| || s[i] in cs then i else FindAny(s, i + 1, cs)
  }

  /** Where a greedy `\s*` starting at `i` stops. */
  function SkipSpaces(s: string, i: nat): (r: nat)
    requires i <= |s|
    ensures i <= r <= |s|
    ensures forall k :: i <= k < r ==> IsSpace(s[k])
    ensures r < |s| ==> !IsSpace(s[r])
    decreases |s| - i
  {
    if i == |s| || !IsSpace(s[i]) then i else SkipSpaces(s, i + 1)
  }
}
